=== FILE: README.md ===
# Productivity dashboard — a Dafny model of its client core

The system is a Next.js productivity dashboard with four areas: goals, a
journal, quick notes and personal finances. Its client core is three zustand
stores (goals, journal entries, notes), the pages and dialogs that drive them,
and the layout shell. The shell consists of the sidebar menu, the
journal-versus-default layout switch and the dashboard grid's notes card.

The model states each store action as a pure transition. Each action takes
the store state and the server's answer and returns the next state. An answer
is `Server.Response`: a payload, or an axios-style error carrying `message`
and the backend's optional `response.data.message`. A goal-store action also
says whether it returned or re-threw. The views are modelled as pure
functions too: validation, payload building, filtering, label formatting and
number formatting. Clock readings and the locale's date text are parameters.

Modules follow the source files:

- `GoalStore` is `stores/goalStore.js`.
- `JournalStore` is `stores/journalStore.js`.
- `NoteStore` is `stores/noteStore.js`.
- `GoalAddModal` and `GoalApp` are the goals page and its dialog.
- `JournalApp` and `JournalEntryModal` are the journal page and its composer.
- `FinanceModal` and `FinanceApp` are the finance page and its form inputs.
- `Grid`, `SideBar` and `ConditionalLayout` are the layout pieces; `Routes` is the route test the last two share.
- Shared helpers:
  - `Base`: optional values.
  - `Server`: responses and errors.
  - `Text`: `trim`, `toLowerCase`, `includes`, `split`, `join`, `replace`.
  - `Seqs`: `filter`, `map`-replace, `new Set`, `slice`.
  - `Digits`: digit strings and `parseFloat`.
  - `Calendar`: days and `new Date(y, m, d)` normalisation.

Unlike the goal store, the journal store records `error.message` (the
transport-level text), returns `null`/`false` and does not re-throw
(`stores/journalStore.js:104-107`, `116-120`). `JournalStore.Fail` models that.

## Model

| member | source | states |
|---|---|---|
| GoalStore.Begin | src/stores/goalStore.js:17 | A request action starts loading and clears the error; the cached data is untouched. |
| GoalStore.Fail | src/stores/goalStore.js:26-32 | A failed action stops loading and records the backend's message, or the action's fallback. The error is re-thrown to the caller and the cached data is untouched. |
| Server.MessageOr | src/stores/goalStore.js:28 | The error text is the backend's non-empty message, otherwise the fallback. |
| GoalStore.FetchGoals | src/stores/goalStore.js:16-33 | On success the goals and statistics are the server's list and the error is cleared. On failure the store keeps its data, records "Failed to fetch goals" or the server text, and re-throws. |
| GoalStore.Resync | src/stores/goalStore.js:45-52 | A mutation's follow-up refetch either installs the server's list or fails. On failure the mutation's own fallback message replaces the refetch's. |
| GoalStore.CreateGoal | src/stores/goalStore.js:36-54 | A failed post changes no data. A successful post followed by a successful refetch ends in the server's list. If the refetch fails, the list is the old list plus the created goal, with the create error re-thrown. |
| GoalStore.FetchGoal | src/stores/goalStore.js:57-73 | Success selects the fetched goal and nothing else changes. Failure keeps the selection and reports "Failed to fetch goal". |
| GoalStore.MergeUpdated | src/stores/goalStore.js:80-88 | Every goal with the id is replaced by the returned goal; the others stay at their positions. The selected goal is replaced only when it has that id. |
| GoalStore.UpdateGoal | src/stores/goalStore.js:76-98 | Success merges the returned goal in place without a refetch. Failure changes no data and reports "Failed to update goal". |
| GoalStore.DeleteGoal | src/stores/goalStore.js:101-121 | Success removes every goal with the id and deselects it if it was selected, then refetches. If the refetch fails, the filtered list and the old statistics stay and the delete message is recorded. |
| GoalStore.UpdateProgress | src/stores/goalStore.js:124-151 | The returned goal (from the `data.goal` envelope) is merged like an update, then the list is refetched. If the refetch fails, the merged list and the old statistics stay and the progress message is recorded. A failed post records its message. |
| GoalStore.FetchUpcomingDeadlines | src/stores/goalStore.js:154-170 | Success replaces only the deadline list; failure reports "Failed to fetch deadlines". |
| GoalStore.FetchGoalsByCategory | src/stores/goalStore.js:173-192 | Success replaces only the goal list, so statistics and deadlines keep describing the previous list. |
| GoalStore.FetchStatistics | src/stores/goalStore.js:195-211 | Success replaces only the statistics; failure reports "Failed to fetch statistics". |
| GoalStore.ClearCurrentGoal | src/stores/goalStore.js:214-216 | Deselects the goal and keeps everything else. |
| GoalStore.ClearError | src/stores/goalStore.js:219-221 | Clears the error and keeps everything else. |
| GoalStore.ResetStore | src/stores/goalStore.js:224-233 | Returns the store's initial state, whatever the state was. |
| GoalStore.ClearsAreIdempotent | src/stores/goalStore.js:214-222 | Clearing the error or the selection twice is the same as once. |
| GoalStore.DeleteRemovesId | src/stores/goalStore.js:101-111 | After a successful delete whose refetch fails, no goal carries the id. Every other goal survives, in its original order. |
| GoalStore.UpdateUnknownIdKeepsGoals | src/stores/goalStore.js:80-84 | An update whose id matches no cached goal leaves the list unchanged. |
| GoalStore.MutationsEndInServerState | src/stores/goalStore.js:44-45 | After a create, delete or progress update whose refetch succeeds, the goals and statistics are exactly the server's. The local edit leaves no trace. |
| JournalStore.BlankForm | src/stores/journalStore.js:85-96 | The blank composer form: empty texts and tags, no theme, and today's day of the month. |
| JournalStore.Initial | src/stores/journalStore.js:6-25 | The store starts empty, idle, without error, with the composer closed in create mode on a blank form. |
| JournalStore.SeedForm | src/stores/journalStore.js:34-41 | Editing fills the form from the entry. Missing texts read as empty, missing tags as none, and an empty theme as absent. The selected day is the entry's day of the month. |
| Base.OrEmpty | src/stores/journalStore.js:35-36 | An absent string reads as the empty string (`x \|\| ""`). |
| Base.NonEmpty | src/stores/journalStore.js:39 | An absent or empty string becomes absent (`x \|\| null`). |
| JournalStore.OpenModal | src/stores/journalStore.js:28-58 | Opening in edit mode with an entry selects it and seeds the form from it. Any other call opens a blank create form. Entries, loading and error are untouched. |
| JournalStore.CloseModal | src/stores/journalStore.js:60-74 | Closing returns to create mode with no selection and a blank form, discarding unsaved edits. |
| JournalStore.ReopenEditSameForm | src/stores/journalStore.js:28-74 | Opening, discarding and reopening the same entry shows the same form: nothing from the discarded state leaks. |
| JournalStore.UpdateFormData | src/stores/journalStore.js:76-83 | Exactly the named form field takes the new value; the rest of the store is untouched. |
| JournalStore.ResetFormData | src/stores/journalStore.js:85-96 | Only the form is reset to blank. |
| JournalStore.Begin | src/stores/journalStore.js:100 | A request starts loading and clears the error; the data is untouched. |
| JournalStore.Fail | src/stores/journalStore.js:104-107 | A failure stops loading and records the error's own message. Nothing else changes and nothing is re-thrown. |
| JournalStore.FetchEntries | src/stores/journalStore.js:99-108 | Success installs the server's entries; failure leaves them and records the message. |
| JournalStore.FetchEntry | src/stores/journalStore.js:110-121 | Success selects and returns the entry; failure returns nothing and keeps the state apart from the error. |
| JournalStore.CreateEntry | src/stores/journalStore.js:123-137 | Success puts the created entry first and returns it; failure returns nothing. The composer is untouched either way. |
| JournalStore.UpdateEntry | src/stores/journalStore.js:139-157 | Success replaces, in place, every entry with the id and returns the new entry. The selection is replaced only when it has that id. Failure returns nothing. |
| JournalStore.DeleteEntry | src/stores/journalStore.js:159-174 | Reports true exactly when the delete succeeded. Then exactly the entries with other ids remain, in order and with every copy kept, and the selection is dropped if it had that id. |
| JournalStore.SaveEntry | src/stores/journalStore.js:177-193 | Saving puts the payload under the selected entry's id when editing an entry, and posts it otherwise. It yields an entry exactly when the request succeeded, and that entry is the server's answer. On success the error is cleared, and a created entry goes in front of the list. An edited entry replaces every entry with its id, in place. Only on success does the composer close and reset. |
| JournalStore.SetCurrentEntry | src/stores/journalStore.js:195 | Sets the selection only. |
| JournalStore.ClearError | src/stores/journalStore.js:197 | Clears the error only. |
| JournalStore.ClearCurrentEntry | src/stores/journalStore.js:199 | Clears the selection only. |
| JournalStore.FailedSaveKeepsComposer | src/stores/journalStore.js:177-193 | A failed save leaves the composer open with the user's input, mode and selection intact, so the save can be retried. |
| JournalStore.EditSaveUpdatesInPlace | src/stores/journalStore.js:139-150 | A successful edit-save keeps the list's length and every entry with another id at its position. |
| NoteStore.SetNoteText | src/stores/noteStore.js:14 | Sets the inline buffer only. |
| NoteStore.SetModalNoteText | src/stores/noteStore.js:15 | Sets the modal buffer only. |
| NoteStore.SetIsModalOpen | src/stores/noteStore.js:16 | Sets the modal flag only. |
| NoteStore.SetEditingNote | src/stores/noteStore.js:17-22 | Records the note being edited. A missing title becomes `""` and the content is kept exactly as passed. |
| NoteStore.ClearEditingNote | src/stores/noteStore.js:23-28 | Forgets the note being edited and keeps the notes and buffers. |
| NoteStore.FetchNotes | src/stores/noteStore.js:31-38 | Success installs the server's notes; failure changes nothing. |
| NoteStore.AddNote | src/stores/noteStore.js:41-57 | A blank inline buffer sends nothing and changes nothing. Otherwise the buffer's exact text is posted. On success the created note is appended and the buffer emptied; on failure nothing changes. |
| NoteStore.AddModalNote | src/stores/noteStore.js:60-77 | The same for the modal buffer; success also closes the modal. |
| Text.Trim | src/stores/noteStore.js:43 | `trim` leaves no leading or trailing white space and never lengthens the text. |
| NoteStore.WhitespaceNeverPosted | src/stores/noteStore.js:43 | A buffer made only of white space is never posted, whatever the server would answer. |
| NoteStore.UpdateNote | src/stores/noteStore.js:80-95 | Success replaces every note with the id by the returned note, positions kept. Failure changes nothing. |
| NoteStore.DeleteNote | src/stores/noteStore.js:98-107 | Success keeps exactly the notes with other ids, in order and with every copy kept. Failure changes nothing. |
| NoteStore.DeleteAfterUpdate | src/stores/noteStore.js:80-107 | Deleting an id after updating it leaves the same notes as deleting it straight away. |
| GoalAddModal.ValidateForm | src/components/goals/GoalAddModal.jsx:37-70 | One message per failing input, and only for title, category, target, start and end. Each input has a message exactly when its check fails. The end date's message is "must be after start" exactly when both dates are given and the end is not later. |
| GoalAddModal.ValidIffWellFormed | src/components/goals/GoalAddModal.jsx:68-69 | The form validates exactly when the goal is well formed. That means a non-blank title, a category, a positive target, and both dates with the end strictly after the start. |
| GoalAddModal.SameDayRefused | src/components/goals/GoalAddModal.jsx:60-66 | An end date equal to the start date is refused with the ordering message. |
| GoalAddModal.EmptyTargetRefused | src/components/goals/GoalAddModal.jsx:48-50 | An empty target value is refused with the positive-target message. |
| GoalAddModal.Payload | src/components/goals/GoalAddModal.jsx:80-94 | The sent goal copies the form. Empty optional texts become null, an empty start value becomes 0, the target is positive and the end is after the start. |
| GoalAddModal.HandleSave | src/components/goals/GoalAddModal.jsx:72-126 | A request is sent exactly when the form is well formed. An invalid form only shows its errors. Success resets and closes the dialog. A rejection keeps the form and shows the backend's field errors, if any. |
| GoalAddModal.ClearFieldError | src/components/goals/GoalAddModal.jsx:31-34 | The changed input's message is blanked and every other message is kept. |
| GoalAddModal.HandleChange | src/components/goals/GoalAddModal.jsx:25-35 | The event's input takes the new value. Only that input's error is blanked; the set of inputs with an error entry is unchanged. |
| GoalAddModal.ToggleReminders | src/components/goals/GoalAddModal.jsx:322-328 | The reminders switch flips and nothing else changes. |
| GoalApp.CalculateProgress | src/components/goals/GoalApp.jsx:36-38 | Progress is the percentage reached, capped at 100; reaching the target shows 100. |
| GoalApp.ProgressMonotone | src/components/goals/GoalApp.jsx:36-38 | More progress never shows a shorter bar. |
| GoalApp.ProgressClampExample | src/components/goals/GoalApp.jsx:37 | 120 out of 100 shows 100, not 120. |
| GoalApp.StatCardsOf | src/components/goals/GoalApp.jsx:41-44 | A missing statistics object, or a missing field, shows as 0. |
| GoalApp.UrgencyOf | src/components/goals/GoalApp.jsx:235-237 | A deadline is overdue exactly when the days left are negative, urgent exactly when they are between 0 and 7, and normal otherwise. |
| GoalApp.DaysLeftLabel | src/components/goals/GoalApp.jsx:262-264 | Past deadlines read "N days overdue" with N the absolute value; others read "N days". |
| Digits.FromNat | src/components/goals/GoalApp.jsx:263-264 | A count is written as a non-empty digit string that denotes it. |
| GoalApp.DaysLeftLabelReadsBack | src/components/goals/GoalApp.jsx:262-264 | The label's leading digits read back as the distance to the deadline. The words after them say "overdue" exactly when the deadline has passed. |
| GoalApp.BadgeFor | src/components/goals/GoalApp.jsx:172-185 | The completed badge is shown exactly for "completed" and the ongoing badge exactly for "ongoing". Any other status is shown as is. |
| JournalApp.FilteredEntries | src/components/journal/JournalApp.jsx:38-65 | An entry is listed exactly when it passes the search, tag, mood and date-range tests. Listed entries keep their original order, each as many times as it occurs. |
| Text.Lower | src/components/journal/JournalApp.jsx:40-45 | Lowercasing keeps the length and maps every character on its own. |
| JournalApp.EmptyQueryMatchesAll | src/components/journal/JournalApp.jsx:39-45 | The empty search matches every entry. |
| JournalApp.SearchIgnoresQueryCase | src/components/journal/JournalApp.jsx:40-45 | Lowercasing the query never changes which entries match. |
| JournalApp.NothingFilteredByDefault | src/components/journal/JournalApp.jsx:20-26 | With no query and no filters, the whole journal is listed in order. |
| JournalApp.FilterPair | src/components/journal/JournalApp.jsx:38-65 | Of two entries, exactly those passing the tests are listed, first before second. |
| JournalApp.TagFilterExample | src/components/journal/JournalApp.jsx:47-48 | Of a trip tagged "travel" and work tagged "job", the tag filter "travel" lists only the trip. |
| JournalApp.DateFilterExample | src/components/journal/JournalApp.jsx:51-62 | Of entries on 1 May and 1 June 2024, a start date of 15 May lists only the June entry. |
| JournalApp.AllTags | src/components/journal/JournalApp.jsx:33 | The tag choices are every tag of some entry, each once. |
| Seqs.Dedup | src/components/journal/JournalApp.jsx:33-36 | `[...new Set(xs)]` keeps each value once and loses none. Values are ordered by the position of their first occurrence. |
| Seqs.DedupFromFirstSeen | src/components/journal/JournalApp.jsx:33-36 | The values a Set keeps come out ordered by where each first appears in the input. |
| Seqs.Filter | src/stores/noteStore.js:102 | `filter` keeps a value exactly as often as the input holds it when the test passes, and never otherwise. It keeps the input order. |
| Seqs.FilterUnique | src/stores/journalStore.js:164 | The only order-keeping selection with those counts is the filter itself. So the delete and search contracts fix their results exactly. |
| JournalApp.MoodsOf | src/components/journal/JournalApp.jsx:35 | The non-empty moods are exactly the non-empty moods of some entry. |
| JournalApp.AllMoods | src/components/journal/JournalApp.jsx:34-36 | The mood choices are every non-empty mood of some entry, each once. |
| JournalApp.ActiveFiltersCount | src/components/journal/JournalApp.jsx:83 | Counts the set filters, at most four. It is 0 exactly when every filter is cleared and 4 exactly when all four are set. |
| JournalApp.ClearFilters | src/components/journal/JournalApp.jsx:74-81 | Clearing leaves no active filter, and then no entry fails the tag, mood or date test. |
| JournalEntryModal.ParseTags | src/components/journal/JournalEntryModal.jsx:54-57 | Every tag sent is non-empty, contains no comma and has no surrounding white space. |
| Text.Split | src/components/journal/JournalEntryModal.jsx:55 | `split` gives at least one piece. No piece holds the separator, and joining the pieces with it gives back the text. |
| JournalEntryModal.ParseJoinRoundTrip | src/components/journal/JournalEntryModal.jsx:26-30 | Showing well-formed tags joined by ", " and parsing the field back gives exactly the same tags. |
| JournalEntryModal.ParseIgnoresLeadingSpace | src/components/journal/JournalEntryModal.jsx:56 | A space at the start of the field never changes the parsed tags. |
| JournalEntryModal.ParseEmpty | src/components/journal/JournalEntryModal.jsx:54-57 | An empty tag field sends no tags. |
| JournalEntryModal.ParseOne | src/components/journal/JournalEntryModal.jsx:54-57 | A single well-formed tag is sent as itself. |
| JournalEntryModal.ParseCons | src/components/journal/JournalEntryModal.jsx:54-57 | A tag followed by ", " and more text parses to that tag followed by the parse of the rest. |
| JournalEntryModal.ParseSkipsEmptyPiece | src/components/journal/JournalEntryModal.jsx:57 | A leading comma adds no empty tag. |
| JournalEntryModal.ParseTrailingComma | src/components/journal/JournalEntryModal.jsx:57 | A trailing comma adds no empty tag. |
| JournalEntryModal.ParseDropsBlankPieces | src/components/journal/JournalEntryModal.jsx:54-57 | "a, ,b," is sent as exactly the two tags a and b. |
| Calendar.MakeDate | src/components/journal/JournalEntryModal.jsx:47-51 | `new Date(y, m, d)` always yields a real day. A day inside the month is kept as given. |
| Calendar.DayZeroIsLastDay | src/components/journal/JournalEntryModal.jsx:43 | Day 0 of the next month is the last day of this month. |
| Calendar.Rollover | src/components/journal/JournalEntryModal.jsx:47-51 | A day past the end of the month (by up to four weeks) lands in the following month. |
| JournalEntryModal.DaysInCurrentMonth | src/components/journal/JournalEntryModal.jsx:43 | The day-0 computation gives exactly the length of the current month. |
| JournalEntryModal.SelectableDays | src/components/journal/JournalEntryModal.jsx:160-172 | The picker offers the days 1 to the month's length, in order. |
| JournalEntryModal.Payload | src/components/journal/JournalEntryModal.jsx:47-65 | The payload carries the form's title, content and mood, and the parsed tags. Its date is a real day, and a day the picker offers is saved as that day of the current month. |
| JournalEntryModal.HandleSave | src/components/journal/JournalEntryModal.jsx:45-69 | A save is issued exactly when the title and content are both non-empty, and it carries the composed payload. A failed save leaves the composer open. A successful save closes it, answers the saved entry, clears the error and, for a new entry, puts it in front of the list. |
| JournalEntryModal.SavedEditReplacesEntry | src/components/journal/JournalEntryModal.jsx:45-69 | A successful save of an edited entry swaps the saved entry in for every entry with the edited id and leaves the others in place. |
| JournalEntryModal.EnabledSaveSends | src/components/journal/JournalEntryModal.jsx:134 | Whenever the save button is enabled, pressing it sends a request. |
| JournalEntryModal.PickedDayIsSaved | src/components/journal/JournalEntryModal.jsx:160-172 | Every day the picker offers is saved as that day of the current month. |
| JournalEntryModal.EditedEntryRollsOver | src/components/journal/JournalEntryModal.jsx:47-51 | Saving in April an entry written on 31 March moves it to 1 May. |
| JournalEntryModal.ReopenedTagsSurvive | src/components/journal/JournalEntryModal.jsx:26-30 | Opening an entry with well-formed tags and saving without touching the tag field sends its tags unchanged. |
| FinanceModal.DigitRun | src/components/finances/FinanceModal.jsx:45 | The lookahead's digit run: how many digits follow a position, up to the first non-digit. |
| FinanceModal.FormatNumber | src/components/finances/FinanceModal.jsx:43-46 | An empty value shows as empty. The grouping of digit strings is stated by FormatNumberOfDigits and ShapedIsFormatted. |
| FinanceModal.CommaBeforeInDigits | src/components/finances/FinanceModal.jsx:45 | In a digit string the pattern puts a comma before exactly the inner positions a multiple of three from the end. |
| FinanceModal.GroupedStep | src/components/finances/FinanceModal.jsx:45 | Each further digit is emitted with a comma exactly where the pattern matches. |
| FinanceModal.GroupedLastThree | src/components/finances/FinanceModal.jsx:45 | The last three digits of a longer number form their own comma-separated group. |
| FinanceModal.FormatNumberOfDigits | src/components/finances/FinanceModal.jsx:43-46 | A non-empty digit string is shown as the reference grouping. The display has a first group of one to three digits, then groups of three, and stripping its commas gives the digits back. |
| FinanceModal.ShapedIsFormatted | src/components/finances/FinanceModal.jsx:43-46 | Conversely every well-grouped display is what the field shows for its own digits. |
| FinanceModal.DigitsHaveNoComma | src/components/finances/FinanceModal.jsx:34 | Stripping commas from a digit string changes nothing. |
| Text.Remove | src/components/finances/FinanceModal.jsx:34 | `replace(/,/g, "")` leaves no comma and never lengthens the text. |
| FinanceModal.RemoveAroundComma | src/components/finances/FinanceModal.jsx:34 | Stripping commas around one comma strips each side separately. |
| FinanceModal.NumberChangeAsWritten | src/components/finances/FinanceModal.jsx:33-40 | As written: a keystroke is forwarded exactly when the field minus its commas is empty or all digits. It is forwarded with its commas. |
| Digits.ParseFloat | src/components/finances/FinanceApp.jsx:47 | `parseFloat` yields the value of the longest leading digit run. It is NaN exactly when the text is empty or does not start with a digit. |
| Digits.ParseFloatStopsAt | src/components/finances/FinanceApp.jsx:47 | Digits followed by a comma or any other non-digit read as the digits alone. |
| FinanceModal.CommaTruncation | src/components/finances/FinanceModal.jsx:33-46 | Typing a fifth digit into the shown "1,000" forwards "1,0000", which `parseFloat` reads as 1 rather than the typed 10000. |
| FinanceModal.NumberChange | src/components/finances/FinanceModal.jsx:33-40 | Corrected: an accepted keystroke forwards the comma-free digits; the same keystrokes are accepted as before. |
| FinanceModal.ForwardedValueParses | src/components/finances/FinanceModal.jsx:33-40 | Corrected: the forwarded value parses to exactly the number the user typed. |
| FinanceModal.UnchangedFieldRoundTrips | src/components/finances/FinanceModal.jsx:43-46 | Corrected: an untouched field forwards exactly the value it shows. |
| FinanceModal.OptionValue | src/components/finances/FinanceModal.jsx:59 | A plain option submits its text. An object submits its value, or "[object Object]" when the value is empty. |
| FinanceModal.OptionLabel | src/components/finances/FinanceModal.jsx:60 | A plain option shows its text. An object shows its label. An object with an empty label is itself the child, and rendering throws. |
| FinanceModal.OptionValueAndLabel | src/components/finances/FinanceModal.jsx:58-62 | A plain option shows what it submits. An object with a value submits that value, and an object that renders shows its label. |
| FinanceApp.BucketOf | src/components/finances/FinanceApp.jsx:70-71 | The select value "fixed" names the fixed bucket and "variable" the variable one. |
| FinanceApp.SelectsOfferKnownValues | src/components/finances/FinanceApp.jsx:419-455 | Every expense choice names a bucket. The income choices are exactly the starting income types, in order. Every option of both selects has a label, so neither select throws. |
| FinanceApp.TotalIncome | src/components/finances/FinanceApp.jsx:41 | With no negative amount the total income is not negative. |
| FinanceApp.InitialTotals | src/components/finances/FinanceApp.jsx:7-44 | The starting dashboard shows 90,000 income, 15,000 expenses and 75,000 available. |
| FinanceApp.Amount | src/components/finances/FinanceApp.jsx:47 | An amount that passes the guard is positive. |
| FinanceApp.FindKind | src/components/finances/FinanceApp.jsx:48-50 | `findIndex` gives the first item of the type, or -1 exactly when no item has it. |
| FinanceApp.HandleAddIncome | src/components/finances/FinanceApp.jsx:46-64 | Without a positive amount nothing changes. Otherwise the total rises by the amount, and the type's item grows or a new item is appended. The dialog then closes and resets, and types stay unique. |
| FinanceApp.AddToExistingKind | src/components/finances/FinanceApp.jsx:51-54 | Adding to an existing type changes only that item's amount. |
| FinanceApp.HandleAddExpense | src/components/finances/FinanceApp.jsx:66-76 | Without a positive amount nothing changes. Otherwise the chosen bucket, and only it, rises by the amount, and the dialog closes and resets. |
| FinanceApp.HandleAddGoal | src/components/finances/FinanceApp.jsx:78-92 | A named goal with a positive target is appended after the existing goals. Its saved amount is the parsed number, or 0 when unreadable. The dialog then closes; otherwise nothing changes. |
| FinanceApp.TypeIncomeAmount | src/components/finances/FinanceModal.jsx:33-40 | Corrected: an accepted keystroke in the income amount field stores comma-free digits. A refused one changes nothing, and nothing else in the dashboard changes. |
| FinanceApp.TypedIncomeIsAdded | src/components/finances/FinanceApp.jsx:46-64 | Corrected: typing an amount, commas included, and submitting it raises the total income by exactly the typed number. |
| FinanceApp.BalanceMoves | src/components/finances/FinanceApp.jsx:41-76 | Adding income raises the available balance by the amount; adding an expense lowers it by the amount. |
| FinanceApp.BudgetSplit | src/components/finances/FinanceApp.jsx:94-96 | The three parts add up to the income, needs equal wants plus savings, and wants to savings is 3:2. With non-negative income, savings ≤ wants ≤ needs. |
| Grid.TruncateText | src/components/layout/Grid.jsx:21-24 | Short texts are unchanged. Longer ones keep their first `maxLength` characters followed by "...". Lengths are counted in characters, not UTF-16 code units (see Left out). |
| Grid.BmpLength | src/components/layout/Grid.jsx:22 | Text inside the Basic Multilingual Plane has as many UTF-16 code units as characters. |
| Grid.TruncateTextInBmp | src/components/layout/Grid.jsx:21-24 | On such text, the cut happens exactly where `text.length` and `substring` put it: unchanged up to `maxLength` code units, else the first `maxLength` followed by "...". |
| Grid.HandleEdit | src/components/layout/Grid.jsx:26-30 | The editor opens on the note with its content, else its title, else nothing. |
| Grid.HandleSaveEdit | src/components/layout/Grid.jsx:32-39 | Without a selected note, including the falsy id 0, nothing happens. Otherwise the note store's update runs with the editor's text, and the editor closes and empties whatever the answer. |
| Grid.NoteLabel | src/components/layout/Grid.jsx:258-260 | A note's line is its non-empty title, else its content, cut to 40 characters plus an ellipsis. |
| Grid.NoteLabels | src/components/layout/Grid.jsx:253 | The card lists the labels of the first five notes at most, in order. |
| Seqs.Take | src/components/layout/Grid.jsx:253 | `slice(0, n)` keeps the first n elements, or all when fewer. |
| SideBar.ActiveOnOwnPath | src/components/layout/SideBar.jsx:32-33 | A menu item is highlighted on its own route. |
| SideBar.ActiveBelowPath | src/components/layout/SideBar.jsx:32-33 | A menu item is highlighted on every route below its own. |
| SideBar.GoalsXInactive | src/components/layout/SideBar.jsx:32-33 | "/goalsX" does not highlight Goals. |
| Routes.ExtensionWithoutSlash | src/components/layout/SideBar.jsx:33 | A pathname that extends a route without a slash does not match it. |
| Routes.NoSharedPathname | src/components/layout/SideBar.jsx:32-33 | Two routes, neither below the other, never match the same pathname. |
| SideBar.MenuRoutesIndependent | src/components/layout/SideBar.jsx:14-21 | The menu routes are pairwise different and none lies below another. |
| SideBar.AtMostOneActive | src/components/layout/SideBar.jsx:30-33 | At most one menu item is highlighted for any pathname. |
| ConditionalLayout.LayoutFor | src/components/layout/ConditionalLayout.jsx:10-29 | The full-width layout is used exactly for "/journal" and the paths below "/journal/"; every other page gets the right panel. |
| ConditionalLayout.JournalIsFullWidth | src/components/layout/ConditionalLayout.jsx:16-21 | "/journal" is full width. |
| ConditionalLayout.JournalSubpagesAreFullWidth | src/components/layout/ConditionalLayout.jsx:10-11 | Every page below "/journal/" is full width. |
| ConditionalLayout.JournalsHasRightPanel | src/components/layout/ConditionalLayout.jsx:10-11 | "/journals" is not a journal page and gets the right panel. |
| ConditionalLayout.HomeHasRightPanel | src/components/layout/ConditionalLayout.jsx:14-29 | The home page gets the right panel: the home-page flag influences nothing. |

## Left out

- HTTP is not modelled: axios, `API_URL` and the requests themselves. Each request's outcome is a `Response` parameter. Of the bodies sent, only the note text, the journal entry payload and the new-goal payload are modelled; the goal update and progress bodies and the note update body are not.
- Concurrency is not modelled: actions run one at a time. Interleaved requests and stale responses are not covered.
- Rendering is not modelled: markup, styling, icons, toasts, `console.error`, and `window.confirm` before deleting a journal entry.
- The clock is a parameter. `new Date().getDate()` is `today`, and the journal composer's current year and month is a valid `CalendarDate`.
- Time zones and time of day are left out. `entry_date` is a calendar day, and `toISOString` and `new Date(entry.entry_date).getDate()` are read at day granularity.
- The locale's `toLocaleDateString` text is a function parameter of the journal search.
- Floating point is left out: goal values are `real`, and `toFixed(1)` rounding is not modelled.
- GoalApp.CalculateProgress: requires a positive target, so the `Infinity`/`NaN` a zero target would give is not modelled.
- Finance amounts are unbounded integers, since the digit-only fields can only produce whole numbers.
- Digits.ParseFloat: reads only a leading run of digits, which covers the digits-and-commas alphabet the number fields let through. Leading blanks, signs, decimals and exponents are not modelled.
- Grid.TruncateText: counts characters, not the UTF-16 code units behind `text.length` and `substring`. Text with characters above U+FFFF (emoji, for instance) is therefore cut at a different point than in the browser. A cut through a surrogate pair, which leaves a lone surrogate, cannot be expressed with `char`. `Grid.TruncateTextInBmp` states that the two agree on Basic Multilingual Plane text. The same applies to `Grid.NoteLabel`'s 40-character cut.
- Text.Lower: lowercases ASCII letters only. Unicode case mapping is not modelled.
- Text.Trim: states only that its result is trimmed and not longer than its input; which characters survive is stated by `Text.TrimKeepsOut`, `Text.TrimTrimmed` and `Text.TrimSpacePrefix`.
- Text.Remove: states only that no comma remains and the length does not grow. The kept characters and their order are stated by `Text.RemoveCons`, `Text.RemoveAbsent` and `FinanceModal.GroupStrips`.
- GoalAddModal's inputs are a `Field` datatype rather than their `name` strings, and number and date inputs hold an optional number or day.
- JournalStore.UpdateFormData: takes a typed `FieldUpdate` (one constructor per form field) instead of `[field]: value`, which accepts any key (`stores/journalStore.js:76-83`). Every caller passes a known field name (`JournalEntryModal.jsx:97`, `105`, `163`, `183`, `204`), so writing an unknown key is not modelled.
- The backend's per-field goal errors are an abstract `CreateResult`; the goal store's exception is not re-parsed.
- FinanceApp's constant `savings` (8000) and the display-only cards (net worth, charts, goal progress bars) are not modelled.
- FinanceApp.jsx:53 mutates the income item in place inside a copied array. The model uses a functional update, which gives the same rendered state.
- FinanceApp.TotalIncome: states only non-negativity; the sum itself is related to the handlers through `FinanceApp.HandleAddIncome` and `FinanceApp.BalanceMoves`.
- `src/components/layout/Header.jsx`, `Modal.jsx`, `RightPanel.jsx` and `src/app/page.js` are not part of this model: they only render.
- The goals page's loading effect is not modelled. It calls `fetchGoals` then `fetchUpcomingDeadlines` and toasts on failure; the toast is rendering, and the two store actions are modelled.
- The goals page's full-page spinner (GoalApp.jsx:47) is rendering and is not modelled.
- The journal composer's mood and theme pickers are not modelled separately: they only call `updateFormData`, which is modelled.

## Findings

| source | as written | input that shows it | evidently intended | confidence | as-written member | corrected member |
|---|---|---|---|---|---|---|
| src/components/finances/FinanceModal.jsx:33-40 | `handleNumberChange` strips the commas only to test the keystroke, then forwards the raw event, commas included. `parseFloat` on submit (FinanceApp.jsx:47) stops at the first comma. | The field shows "1,000" for 1000; typing "0" forwards "1,0000", which is submitted as 1. | Forward the comma-free digits, so "1,0000" becomes 10000 and an untouched field forwards the value it shows. | not executed | FinanceModal.NumberChangeAsWritten, FinanceModal.CommaTruncation | FinanceModal.NumberChange, FinanceModal.ForwardedValueParses, FinanceApp.TypedIncomeIsAdded |

=== FILE: base.dfy ===
/** Values that JavaScript writes as `null`/`undefined` or as a present value. */
module Base {

  datatype Option<+T> = None | Some(value: T) {

    /** The value, or `default` when absent (the `x ?? default` idiom). */
    function GetOr(default: T): T {
      match this
      case Some(v) => v
      case None => default
    }
  }

  /** `s || ""`: an absent string reads as the empty string. */
  function OrEmpty(s: Option<string>): (r: string)
    ensures s.Some? ==> r == s.value
    ensures s.None? ==> r == ""
  {
    s.GetOr("")
  }

  /** `s || null`: an absent or empty string becomes absent. */
  function NonEmpty(s: Option<string>): (r: Option<string>)
    ensures r.Some? <==> s.Some? && s.value != ""
    ensures r.Some? ==> r == s
  {
    if s.Some? && s.value != "" then s else None
  }
}

=== FILE: calendar.dfy ===
/** Gregorian calendar dates as `Date` handles them at day granularity, including
    the normalisation `new Date(year, month, day)` applies to an out-of-range day. */
module Calendar {

  /** A local calendar day; `month` runs 1..12 (JavaScript's `getMonth()` plus one). */
  datatype CalendarDate = CalendarDate(year: int, month: int, day: int)

  predicate IsLeapYear(y: int) {
    (y % 4 == 0 && y % 100 != 0) || y % 400 == 0
  }

  function DaysInMonth(y: int, m: int): (r: int)
    requires 1 <= m <= 12
    ensures 28 <= r <= 31
    ensures r == 28 <==> m == 2 && !IsLeapYear(y)
  {
    if m == 2 then (if IsLeapYear(y) then 29 else 28)
    else if m == 4 || m == 6 || m == 9 || m == 11 then 30
    else 31
  }

  predicate Valid(d: CalendarDate) {
    1 <= d.month <= 12 && 1 <= d.day <= DaysInMonth(d.year, d.month)
  }

  /** Chronological order of days (`a <= b` on the corresponding `Date`s). */
  predicate OnOrBefore(a: CalendarDate, b: CalendarDate) {
    a.year < b.year
    || (a.year == b.year && a.month < b.month)
    || (a.year == b.year && a.month == b.month && a.day <= b.day)
  }

  lemma OnOrBeforeTotal(a: CalendarDate, b: CalendarDate)
    ensures OnOrBefore(a, b) || OnOrBefore(b, a)
    ensures OnOrBefore(a, b) && OnOrBefore(b, a) ==> a == b
  {
  }

  function NextMonth(y: int, m: int): (r: (int, int))
    requires 1 <= m <= 12
    ensures 1 <= r.1 <= 12
  {
    if m == 12 then (y + 1, 1) else (y, m + 1)
  }

  function PrevMonth(y: int, m: int): (r: (int, int))
    requires 1 <= m <= 12
    ensures 1 <= r.1 <= 12
    ensures NextMonth(r.0, r.1) == (y, m)
  {
    if m == 1 then (y - 1, 12) else (y, m - 1)
  }

  /** `new Date(y, m - 1, d)` read back as a calendar day: a day past the end of
      the month runs on into the following months, a day below 1 runs back. */
  function MakeDate(y: int, m: int, d: int): (r: CalendarDate)
    requires 1 <= m <= 12
    ensures Valid(r)
    ensures 1 <= d <= DaysInMonth(y, m) ==> r == CalendarDate(y, m, d)
    decreases if d < 1 then 1 else 0, if d < 1 then -d else d
  {
    if d < 1 then
      var p := PrevMonth(y, m);
      MakeDate(p.0, p.1, d + DaysInMonth(p.0, p.1))
    else if d <= DaysInMonth(y, m) then CalendarDate(y, m, d)
    else
      var n := NextMonth(y, m);
      MakeDate(n.0, n.1, d - DaysInMonth(y, m))
  }

  /** Day 0 of a month is the last day of the month before: this is how
      `new Date(y, m + 1, 0).getDate()` yields the length of month `m`. */
  lemma DayZeroIsLastDay(y: int, m: int)
    requires 1 <= m <= 12
    ensures MakeDate(NextMonth(y, m).0, NextMonth(y, m).1, 0)
         == CalendarDate(y, m, DaysInMonth(y, m))
  {
    var n := NextMonth(y, m);
    assert PrevMonth(n.0, n.1) == (y, m);
  }

  /** A day up to four weeks past the end of the month lands in the next month. */
  lemma Rollover(y: int, m: int, d: int)
    requires 1 <= m <= 12
    requires DaysInMonth(y, m) < d <= DaysInMonth(y, m) + 28
    ensures MakeDate(y, m, d)
         == CalendarDate(NextMonth(y, m).0, NextMonth(y, m).1, d - DaysInMonth(y, m))
  {
  }
}

=== FILE: conditional_layout.dfy ===
/** The layout shell: the journal takes the full width, every other page gets
    the padded main area plus the right-hand panel. */
module ConditionalLayout {
  import opened Routes
  import Text

  datatype Layout = FullWidth | WithRightPanel

  /** `pathname === "/journal" || pathname.startsWith("/journal/")`. */
  predicate IsJournalPage(pathname: string) {
    RouteMatches(pathname, "/journal")
  }

  /** Computed by the component but never consulted. */
  predicate IsHomePage(pathname: string) {
    pathname == "/"
  }

  function LayoutFor(pathname: string): (r: Layout)
    ensures r == FullWidth <==> pathname == "/journal" || Text.StartsWith(pathname, "/journal/")
  {
    if IsJournalPage(pathname) then FullWidth else WithRightPanel
  }

  lemma JournalIsFullWidth()
    ensures LayoutFor("/journal") == FullWidth
  {
  }

  lemma JournalSubpagesAreFullWidth(rest: string)
    ensures LayoutFor("/journal/" + rest) == FullWidth
  {
    assert ("/journal/" + rest)[..9] == "/journal/";
  }

  /** `"/journals"` only extends the journal route without a slash. */
  lemma JournalsHasRightPanel()
    ensures LayoutFor("/journals") == WithRightPanel
  {
    assert "/journals" == "/journal" + "s";
    ExtensionWithoutSlash("/journal", "s");
  }

  /** The home page takes the default branch: `IsHomePage` changes nothing. */
  lemma HomeHasRightPanel(pathname: string)
    requires IsHomePage(pathname)
    ensures LayoutFor(pathname) == WithRightPanel
  {
  }
}

=== FILE: digits.dfy ===
/** Decimal digit strings: their value, the decimal rendering of a count, and
    `parseFloat` restricted to the digits-and-commas alphabet of the number fields. */
module Digits {
  import opened Base
  import Text

  predicate IsDigit(c: char) {
    '0' <= c <= '9'
  }

  /** `/^\d*$/`. */
  predicate AllDigits(s: string) {
    forall i :: 0 <= i < |s| ==> IsDigit(s[i])
  }

  function DigitValue(c: char): (r: nat)
    requires IsDigit(c)
    ensures r < 10
  {
    c as int - '0' as int
  }

  function DigitChar(d: nat): (c: char)
    requires d < 10
    ensures IsDigit(c) && DigitValue(c) == d
  {
    ('0' as int + d) as char
  }

  /** The number a digit string denotes. */
  function Value(s: string): nat
    requires AllDigits(s)
    decreases |s|
  {
    if |s| == 0 then 0 else Value(s[..|s| - 1]) * 10 + DigitValue(s[|s| - 1])
  }

  /** `String(n)` for a natural number: a non-empty digit string denoting `n`. */
  function FromNat(n: nat): (r: string)
    ensures |r| >= 1 && AllDigits(r)
    ensures Value(r) == n
  {
    if n < 10 then [DigitChar(n)]
    else
      var r := FromNat(n / 10) + [DigitChar(n % 10)];
      assert r[..|r| - 1] == FromNat(n / 10);
      r
  }

  /** The longest prefix of `s` made of digits. */
  function LeadingDigits(s: string): (r: string)
    ensures AllDigits(r) && Text.StartsWith(s, r)
    ensures |r| == |s| || !IsDigit(s[|r|])
  {
    if |s| > 0 && IsDigit(s[0]) then
      var rest := LeadingDigits(s[1..]);
      assert ([s[0]] + rest)[1..] == rest;
      [s[0]] + rest
    else ""
  }

  /** `parseFloat(s)` on a string of digits and commas: the value of the leading
      digit run, since parsing stops at the first comma; absent (NaN) when the
      string does not start with a digit. */
  function ParseFloat(s: string): (r: Option<nat>)
    ensures r.None? <==> |s| == 0 || !IsDigit(s[0])
    ensures r.Some? ==> r.value == Value(LeadingDigits(s))
  {
    var d := LeadingDigits(s);
    if |d| == 0 then None else Some(Value(d))
  }

  /** On a plain digit string `parseFloat` reads the whole string. */
  lemma {:induction false} ParseFloatOfDigits(s: string)
    requires |s| > 0 && AllDigits(s)
    ensures ParseFloat(s) == Some(Value(s))
  {
    LeadingAllDigits(s);
  }

  /** `parseFloat` stops at the first character that is not a digit, such as a
      thousands comma: "12,345" reads as 12. */
  lemma {:induction false} ParseFloatStopsAt(a: string, rest: string)
    requires |a| > 0 && AllDigits(a)
    requires |rest| > 0 && !IsDigit(rest[0])
    ensures ParseFloat(a + rest) == Some(Value(a))
  {
    LeadingDigitsStop(a, rest);
  }

  lemma {:induction false} LeadingDigitsStop(a: string, rest: string)
    requires AllDigits(a)
    requires |rest| > 0 && !IsDigit(rest[0])
    ensures LeadingDigits(a + rest) == a
  {
    if |a| == 0 {
      assert a + rest == rest;
    } else {
      LeadingDigitsStop(a[1..], rest);
      assert (a + rest)[1..] == a[1..] + rest;
      assert [a[0]] + a[1..] == a;
    }
  }

  lemma {:induction false} LeadingAllDigits(s: string)
    requires AllDigits(s)
    ensures LeadingDigits(s) == s
  {
    if |s| > 0 {
      LeadingAllDigits(s[1..]);
      assert [s[0]] + s[1..] == s;
    }
  }
}

=== FILE: finance_app.dfy ===
/** The personal finance dashboard: income by type, the two expense buckets,
    savings goals, the totals derived from them and the three add dialogs. */
module FinanceApp {
  import opened Base
  import Digits
  import Text
  import FinanceModal

  datatype IncomeItem = IncomeItem(kind: string, amount: int)

  datatype Bucket = Fixed | Variable

  datatype Expenses = Expenses(fixed: int, variable: int)

  datatype SavingsGoal = SavingsGoal(name: string, target: int, saved: int, deadline: string)

  /** The dialogs' fields hold text as typed; amounts are parsed on submit. */
  datatype IncomeForm = IncomeForm(kind: string, amount: string)
  datatype ExpenseForm = ExpenseForm(bucket: Bucket, amount: string)
  datatype GoalForm = GoalForm(name: string, target: string, saved: string, deadline: string)

  datatype State = State(
    income: seq<IncomeItem>,
    expenses: Expenses,
    goals: seq<SavingsGoal>,
    showIncomeModal: bool,
    showExpenseModal: bool,
    showGoalModal: bool,
    newIncome: IncomeForm,
    newExpense: ExpenseForm,
    newGoal: GoalForm)

  const BlankIncomeForm := IncomeForm("Salary", "")
  const BlankExpenseForm := ExpenseForm(Fixed, "")
  const BlankGoalForm := GoalForm("", "", "", "")

  const Initial := State(
    [IncomeItem("Salary", 40000), IncomeItem("Freelance", 30000),
     IncomeItem("Business", 15000), IncomeItem("Other", 5000)],
    Expenses(8000, 7000),
    [SavingsGoal("Emergency Fund", 50000, 16000, "May 2024")],
    false, false, false,
    BlankIncomeForm, BlankExpenseForm, BlankGoalForm)

  /** The choices of the income type select. */
  const IncomeOptions := [FinanceModal.Plain("Salary"), FinanceModal.Plain("Freelance"),
                          FinanceModal.Plain("Business"), FinanceModal.Plain("Other")]

  /** The choices of the expense type select. */
  const ExpenseOptions := [FinanceModal.Labeled("fixed", "Fixed"), FinanceModal.Labeled("variable", "Variable")]

  /** The expense bucket a select value names. */
  function BucketOf(v: string): (r: Option<Bucket>)
    ensures r == Some(Fixed) <==> v == "fixed"
    ensures r == Some(Variable) <==> v == "variable"
  {
    if v == "fixed" then Some(Fixed) else if v == "variable" then Some(Variable) else None
  }

  /** Every choice of the expense select names a bucket, so the form's bucket is
      always one of the two; the income select offers exactly the starting types;
      every option of both selects has a label, so neither select throws. */
  lemma SelectsOfferKnownValues()
    ensures forall o :: o in ExpenseOptions ==> BucketOf(FinanceModal.OptionValue(o)).Some?
    ensures forall i :: 0 <= i < |IncomeOptions|
              ==> FinanceModal.OptionValue(IncomeOptions[i]) == Initial.income[i].kind
    ensures forall o :: o in ExpenseOptions + IncomeOptions ==> FinanceModal.OptionLabel(o).Some?
  {
  }

  function Sum(items: seq<IncomeItem>): int {
    if |items| == 0 then 0 else items[0].amount + Sum(items[1..])
  }

  lemma {:induction false} SumAppend(items: seq<IncomeItem>, x: IncomeItem)
    ensures Sum(items + [x]) == Sum(items) + x.amount
  {
    if |items| > 0 {
      assert (items + [x])[1..] == items[1..] + [x];
      SumAppend(items[1..], x);
    }
  }

  lemma {:induction false} SumUpdate(items: seq<IncomeItem>, i: nat, x: IncomeItem)
    requires i < |items|
    ensures Sum(items[i := x]) == Sum(items) - items[i].amount + x.amount
  {
    if i > 0 {
      assert items[i := x][1..] == items[1..][i - 1 := x];
      SumUpdate(items[1..], i - 1, x);
    }
  }

  /** `totalIncome`: the sum of the income amounts. */
  function TotalIncome(s: State): (t: int)
    ensures (forall i :: 0 <= i < |s.income| ==> s.income[i].amount >= 0) ==> t >= 0
  {
    NonNegativeSum(s.income);
    Sum(s.income)
  }

  lemma {:induction false} NonNegativeSum(items: seq<IncomeItem>)
    ensures (forall i :: 0 <= i < |items| ==> items[i].amount >= 0) ==> Sum(items) >= 0
  {
    if |items| > 0 {
      NonNegativeSum(items[1..]);
      assert forall i :: 1 <= i < |items| ==> items[i] == items[1..][i - 1];
    }
  }

  function TotalExpenses(s: State): int {
    s.expenses.fixed + s.expenses.variable
  }

  function AvailableBalance(s: State): int {
    TotalIncome(s) - TotalExpenses(s)
  }

  /** The starting dashboard: 90,000 income, 15,000 expenses, 75,000 available. */
  lemma InitialTotals()
    ensures TotalIncome(Initial) == 90000
    ensures TotalExpenses(Initial) == 15000
    ensures AvailableBalance(Initial) == 75000
  {
    var items := Initial.income;
    assert items[1..][1..][1..][1..] == [];
  }

  /** The submit guard: a non-empty amount that parses to a positive number. */
  predicate PositiveAmount(text: string) {
    text != "" && Digits.ParseFloat(text).Some? && Digits.ParseFloat(text).value > 0
  }

  function Amount(text: string): (a: int)
    requires PositiveAmount(text)
    ensures a > 0
  {
    Digits.ParseFloat(text).value
  }

  /** `findIndex` on the type: the first item of that type, or -1. */
  function FindKind(items: seq<IncomeItem>, kind: string): (i: int)
    ensures -1 <= i < |items|
    ensures i >= 0 ==> items[i].kind == kind && forall j :: 0 <= j < i ==> items[j].kind != kind
    ensures i < 0 ==> forall j :: 0 <= j < |items| ==> items[j].kind != kind
  {
    if |items| == 0 then -1
    else if items[0].kind == kind then 0
    else
      var k := FindKind(items[1..], kind);
      assert forall j :: 1 <= j < |items| ==> items[j] == items[1..][j - 1];
      if k < 0 then -1 else k + 1
  }

  /** Each income type appears at most once. */
  predicate UniqueKinds(items: seq<IncomeItem>) {
    forall i, j :: 0 <= i < j < |items| ==> items[i].kind != items[j].kind
  }

  /** `handleAddIncome`: a positive amount is added to the item of the chosen
      type, or appended as a new item when there is none; the dialog then closes
      and its form resets. Otherwise nothing changes and the dialog stays open. */
  function HandleAddIncome(s: State): (r: State)
    ensures !PositiveAmount(s.newIncome.amount) ==> r == s
    ensures PositiveAmount(s.newIncome.amount) ==>
      var a := Amount(s.newIncome.amount);
      && TotalIncome(r) == TotalIncome(s) + a
      && r.newIncome == BlankIncomeForm && !r.showIncomeModal
      && r.expenses == s.expenses && r.goals == s.goals
      && (FindKind(s.income, s.newIncome.kind) >= 0 ==> |r.income| == |s.income|)
      && (FindKind(s.income, s.newIncome.kind) < 0
          ==> r.income == s.income + [IncomeItem(s.newIncome.kind, a)])
    ensures UniqueKinds(s.income) ==> UniqueKinds(r.income)
  {
    if PositiveAmount(s.newIncome.amount) then
      var a := Amount(s.newIncome.amount);
      var kind := s.newIncome.kind;
      var i := FindKind(s.income, kind);
      var income :=
        if i >= 0 then
          (var item := s.income[i].(amount := s.income[i].amount + a);
           SumUpdate(s.income, i, item);
           s.income[i := item])
        else
          (SumAppend(s.income, IncomeItem(kind, a));
           s.income + [IncomeItem(kind, a)]);
      s.(income := income, newIncome := BlankIncomeForm, showIncomeModal := false)
    else s
  }

  /** Adding income to an existing type changes only that item's amount. */
  lemma AddToExistingKind(s: State)
    requires PositiveAmount(s.newIncome.amount)
    requires FindKind(s.income, s.newIncome.kind) >= 0
    ensures var i := FindKind(s.income, s.newIncome.kind);
      var r := HandleAddIncome(s).income;
      && r[i] == IncomeItem(s.newIncome.kind, s.income[i].amount + Amount(s.newIncome.amount))
      && forall j :: 0 <= j < |r| && j != i ==> r[j] == s.income[j]
  {
  }

  function AddToBucket(e: Expenses, b: Bucket, a: int): Expenses {
    match b
    case Fixed => e.(fixed := e.fixed + a)
    case Variable => e.(variable := e.variable + a)
  }

  /** `handleAddExpense`: a positive amount goes into the chosen bucket only. */
  function HandleAddExpense(s: State): (r: State)
    ensures !PositiveAmount(s.newExpense.amount) ==> r == s
    ensures PositiveAmount(s.newExpense.amount) ==>
      var a := Amount(s.newExpense.amount);
      && TotalExpenses(r) == TotalExpenses(s) + a
      && (s.newExpense.bucket == Fixed ==> r.expenses.variable == s.expenses.variable)
      && (s.newExpense.bucket == Variable ==> r.expenses.fixed == s.expenses.fixed)
      && r.income == s.income && r.goals == s.goals
      && r.newExpense == BlankExpenseForm && !r.showExpenseModal
  {
    if PositiveAmount(s.newExpense.amount) then
      var a := Amount(s.newExpense.amount);
      s.(expenses := AddToBucket(s.expenses, s.newExpense.bucket, a),
         newExpense := BlankExpenseForm, showExpenseModal := false)
    else s
  }

  /** `handleAddGoal`: a named goal with a positive target is appended; an empty
      or unreadable saved amount counts as 0. */
  function HandleAddGoal(s: State): (r: State)
    ensures !(s.newGoal.name != "" && PositiveAmount(s.newGoal.target)) ==> r == s
    ensures s.newGoal.name != "" && PositiveAmount(s.newGoal.target) ==>
      && |r.goals| == |s.goals| + 1
      && r.goals[..|s.goals|] == s.goals
      && r.goals[|s.goals|].name == s.newGoal.name
      && r.goals[|s.goals|].target == Amount(s.newGoal.target)
      && r.goals[|s.goals|].deadline == s.newGoal.deadline
      && (Digits.ParseFloat(s.newGoal.saved).None? ==> r.goals[|s.goals|].saved == 0)
      && (Digits.ParseFloat(s.newGoal.saved).Some?
          ==> r.goals[|s.goals|].saved == Digits.ParseFloat(s.newGoal.saved).value)
      && r.newGoal == BlankGoalForm && !r.showGoalModal
      && r.income == s.income && r.expenses == s.expenses
  {
    if s.newGoal.name != "" && PositiveAmount(s.newGoal.target) then
      var g := SavingsGoal(s.newGoal.name, Amount(s.newGoal.target),
                           Digits.ParseFloat(s.newGoal.saved).GetOr(0), s.newGoal.deadline);
      s.(goals := s.goals + [g], newGoal := BlankGoalForm, showGoalModal := false)
    else s
  }

  /** A keystroke in the income dialog's amount field, passed on through the
      corrected `FinanceModal.NumberChange`: accepted text is stored without its
      commas, refused text leaves the dialog as it was. */
  function TypeIncomeAmount(s: State, raw: string): (r: State)
    ensures r.income == s.income && r.expenses == s.expenses && r.goals == s.goals
    ensures r.newIncome.kind == s.newIncome.kind && r.showIncomeModal == s.showIncomeModal
    ensures FinanceModal.Accepts(raw) ==> Digits.AllDigits(r.newIncome.amount) && ',' !in r.newIncome.amount
    ensures !FinanceModal.Accepts(raw) ==> r == s
  {
    match FinanceModal.NumberChange(raw)
    case Some(v) => s.(newIncome := s.newIncome.(amount := v))
    case None => s
  }

  /** Typing an amount, commas and all, and submitting it adds exactly the
      number the user typed: "1,0000" adds 10000. */
  lemma TypedIncomeIsAdded(s: State, raw: string)
    requires FinanceModal.Accepts(raw)
    requires Text.Remove(raw, ',') != "" && Digits.Value(Text.Remove(raw, ',')) > 0
    ensures TotalIncome(HandleAddIncome(TypeIncomeAmount(s, raw)))
         == TotalIncome(s) + Digits.Value(Text.Remove(raw, ','))
  {
    FinanceModal.ForwardedValueParses(raw);
  }

  /** Adding income raises the available balance by the amount; adding an
      expense lowers it by the amount. */
  lemma BalanceMoves(s: State)
    ensures PositiveAmount(s.newIncome.amount)
            ==> AvailableBalance(HandleAddIncome(s)) == AvailableBalance(s) + Amount(s.newIncome.amount)
    ensures PositiveAmount(s.newExpense.amount)
            ==> AvailableBalance(HandleAddExpense(s)) == AvailableBalance(s) - Amount(s.newExpense.amount)
  {
  }

  /** The 50/30/20 rule applied to the total income. */
  datatype Split = Split(needs: real, wants: real, savingsTarget: real)

  function BudgetSplit(totalIncome: int): (r: Split)
    ensures r.needs + r.wants + r.savingsTarget == totalIncome as real
    ensures r.needs == r.wants + r.savingsTarget
    ensures totalIncome >= 0 ==> 0.0 <= r.savingsTarget <= r.wants <= r.needs
    ensures 2.0 * r.wants == 3.0 * r.savingsTarget
  {
    var t := totalIncome as real;
    Split(t * 0.5, t * 0.3, t * 0.2)
  }
}

=== FILE: finance_modal.dfy ===
/** The finance dialogs' `FormInput`: the digits-only amount field with its
    thousands separators, and the option value and label of a select. */
module FinanceModal {
  import opened Base
  import Text
  import Digits

  /** `\w` in a JavaScript regular expression. */
  predicate IsWordChar(c: char) {
    Digits.IsDigit(c) || ('a' <= c <= 'z') || ('A' <= c <= 'Z') || c == '_'
  }

  /** How many digits follow position `p` before the first non-digit. */
  function DigitRun(s: string, p: nat): (n: nat)
    requires p <= |s|
    ensures p + n <= |s|
    ensures forall i :: p <= i < p + n ==> Digits.IsDigit(s[i])
    ensures p + n == |s| || !Digits.IsDigit(s[p + n])
    decreases |s| - p
  {
    if p == |s| || !Digits.IsDigit(s[p]) then 0 else 1 + DigitRun(s, p + 1)
  }

  /** Where `/\B(?=(\d{3})+(?!\d))/g` matches: inside a word (`\B` before a
      digit), with a multiple of three digits up to the end of the digit run. */
  predicate CommaBefore(s: string, p: nat)
    requires p <= |s|
  {
    0 < p && IsWordChar(s[p - 1]) && DigitRun(s, p) > 0 && DigitRun(s, p) % 3 == 0
  }

  /** The first `n` characters of `s`, each preceded by a comma where the pattern matches. */
  function Grouped(s: string, n: nat): string
    requires n <= |s|
  {
    if n == 0 then ""
    else Grouped(s, n - 1) + (if CommaBefore(s, n - 1) then "," else "") + [s[n - 1]]
  }

  /** `formatNumber`: the empty (falsy) value shows as empty, anything else gets a
      comma at every position the pattern matches. What that means for a digit
      string (thousands grouping) is stated by `FormatNumberOfDigits` and
      `ShapedIsFormatted`. */
  function FormatNumber(s: string): (r: string)
    ensures s == "" ==> r == ""
  {
    if s == "" then "" else Grouped(s, |s|)
  }

  /** Reference grouping of a digit string: the last three digits split off
      after a comma until at most three remain. */
  function Group(d: string): (r: string)
    decreases |d|
  {
    if |d| <= 3 then d else Group(d[..|d| - 3]) + "," + d[|d| - 3..]
  }

  /** A first group of one to three digits, then groups of exactly three, one comma apart. */
  predicate Shaped(t: string)
    decreases |t|
  {
    || (1 <= |t| <= 3 && Digits.AllDigits(t))
    || (|t| > 4 && t[|t| - 4] == ',' && Digits.AllDigits(t[|t| - 3..]) && Shaped(t[..|t| - 4]))
  }

  lemma {:induction false} DigitRunOfDigits(d: string, p: nat)
    requires Digits.AllDigits(d) && p <= |d|
    ensures DigitRun(d, p) == |d| - p
    decreases |d| - p
  {
    if p < |d| {
      DigitRunOfDigits(d, p + 1);
    }
  }

  /** In a digit string a comma goes before every position a multiple of three from the end. */
  lemma CommaBeforeInDigits(d: string, p: nat)
    requires Digits.AllDigits(d) && p <= |d|
    ensures CommaBefore(d, p) <==> 0 < p < |d| && (|d| - p) % 3 == 0
  {
    DigitRunOfDigits(d, p);
  }

  /** Two digit strings sharing a prefix, with lengths a multiple of three apart,
      get the same commas in that prefix. */
  lemma {:induction false} GroupedAgree(d: string, e: string, n: nat)
    requires Digits.AllDigits(d) && Digits.AllDigits(e)
    requires n <= |e| < |d| && d[..n] == e[..n] && (|d| - |e|) % 3 == 0
    ensures Grouped(d, n) == Grouped(e, n)
  {
    if n > 0 {
      assert d[..n - 1] == e[..n - 1] by {
        assert d[..n - 1] == d[..n][..n - 1];
        assert e[..n - 1] == e[..n][..n - 1];
      }
      GroupedAgree(d, e, n - 1);
      CommaBeforeInDigits(d, n - 1);
      CommaBeforeInDigits(e, n - 1);
      assert d[n - 1] == d[..n][n - 1] == e[..n][n - 1] == e[n - 1];
    }
  }

  /** Up to three digits get no comma. */
  lemma {:induction false} GroupedShort(d: string, n: nat)
    requires Digits.AllDigits(d) && |d| <= 3 && n <= |d|
    ensures Grouped(d, n) == d[..n]
  {
    if n > 0 {
      GroupedShort(d, n - 1);
      CommaBeforeInDigits(d, n - 1);
      assert d[..n] == d[..n - 1] + [d[n - 1]];
    }
  }

  /** One more character of a digit string, with its comma when a multiple of
      three digits follows it. */
  lemma GroupedStep(d: string, n: nat)
    requires Digits.AllDigits(d) && 0 < n <= |d|
    ensures Grouped(d, n)
         == Grouped(d, n - 1) + (if 0 < n - 1 && (|d| - (n - 1)) % 3 == 0 then "," else "") + [d[n - 1]]
  {
    CommaBeforeInDigits(d, n - 1);
  }

  /** The last three digits of a longer digit string form their own group. */
  lemma GroupedLastThree(d: string)
    requires Digits.AllDigits(d) && |d| > 3
    ensures Grouped(d, |d|) == Grouped(d, |d| - 3) + "," + d[|d| - 3..]
  {
    var m := |d| - 3;
    GroupedStep(d, m + 1);
    GroupedStep(d, m + 2);
    GroupedStep(d, m + 3);
    assert d[m..] == [d[m]] + [d[m + 1]] + [d[m + 2]];
  }

  /** The pattern-based formatting agrees with the reference grouping on digit strings. */
  lemma {:induction false} FormatIsGroup(d: string)
    requires Digits.AllDigits(d)
    ensures Grouped(d, |d|) == Group(d)
    decreases |d|
  {
    if |d| <= 3 {
      GroupedShort(d, |d|);
      assert d[..|d|] == d;
    } else {
      var m := |d| - 3;
      var front := d[..m];
      assert Digits.AllDigits(front);
      GroupedLastThree(d);
      assert front[..m] == d[..m];
      GroupedAgree(d, front, m);
      FormatIsGroup(front);
    }
  }

  lemma {:induction false} GroupShaped(d: string)
    requires |d| >= 1 && Digits.AllDigits(d)
    ensures Shaped(Group(d))
    decreases |d|
  {
    if |d| > 3 {
      var front := d[..|d| - 3];
      GroupShaped(front);
      var t := Group(d);
      var g := Group(front);
      assert t == g + "," + d[|d| - 3..];
      assert t[..|t| - 4] == g;
      assert t[|t| - 3..] == d[|d| - 3..];
    }
  }

  lemma DigitsHaveNoComma(s: string)
    requires Digits.AllDigits(s)
    ensures Text.Remove(s, ',') == s
  {
    forall i | 0 <= i < |s| ensures s[i] != ',' {
      assert Digits.IsDigit(s[i]);
    }
    Text.RemoveAbsent(s, ',');
  }

  lemma RemoveAroundComma(a: string, b: string)
    ensures Text.Remove(a + "," + b, ',') == Text.Remove(a, ',') + Text.Remove(b, ',')
  {
    var comma: string := [','];
    assert Text.Remove(comma, ',') == "" by {
      assert comma[1..] == "";
    }
    Text.RemoveAppend(a, comma, ',');
    assert Text.Remove(a + comma, ',') == Text.Remove(a, ',');
    Text.RemoveAppend(a + comma, b, ',');
  }

  lemma {:induction false} GroupStrips(d: string)
    requires Digits.AllDigits(d)
    ensures Text.Remove(Group(d), ',') == d
    decreases |d|
  {
    if |d| <= 3 {
      DigitsHaveNoComma(d);
    } else {
      var front := d[..|d| - 3];
      var last := d[|d| - 3..];
      assert Digits.AllDigits(front) && Digits.AllDigits(last);
      GroupStrips(front);
      DigitsHaveNoComma(last);
      RemoveAroundComma(Group(front), last);
      assert front + last == d;
    }
  }

  /** A well-grouped display is the grouping of its own digits. */
  lemma DigitsAppend(a: string, b: string)
    requires Digits.AllDigits(a) && Digits.AllDigits(b)
    ensures Digits.AllDigits(a + b)
  {
    assert forall i :: 0 <= i < |a| ==> (a + b)[i] == a[i];
    assert forall i :: |a| <= i < |a + b| ==> (a + b)[i] == b[i - |a|];
  }

  /** Appending a group of three digits to a digit string appends it to the grouping. */
  lemma GroupAppend(d: string, last: string)
    requires |d| >= 1 && |last| == 3
    ensures Group(d + last) == Group(d) + "," + last
  {
    var e := d + last;
    assert e[..|e| - 3] == d && e[|e| - 3..] == last;
  }

  lemma {:induction false} ShapedIsGroupOfDigits(t: string)
    requires Shaped(t)
    ensures |Text.Remove(t, ',')| >= 1 && Digits.AllDigits(Text.Remove(t, ','))
    ensures Group(Text.Remove(t, ',')) == t
    decreases |t|
  {
    if 1 <= |t| <= 3 && Digits.AllDigits(t) {
      DigitsHaveNoComma(t);
    } else {
      var u := t[..|t| - 4];
      var last := t[|t| - 3..];
      assert t == u + "," + last;
      ShapedIsGroupOfDigits(u);
      var du := Text.Remove(u, ',');
      DigitsHaveNoComma(last);
      RemoveAroundComma(u, last);
      DigitsAppend(du, last);
      GroupAppend(du, last);
    }
  }

  /** The amount field shows a non-empty digit string with a first group of one
      to three digits and later groups of three, and the commas strip away to
      the digits again. */
  lemma FormatNumberOfDigits(d: string)
    requires |d| >= 1 && Digits.AllDigits(d)
    ensures FormatNumber(d) == Group(d)
    ensures Shaped(FormatNumber(d))
    ensures Text.Remove(FormatNumber(d), ',') == d
  {
    FormatIsGroup(d);
    GroupShaped(d);
    GroupStrips(d);
  }

  /** Conversely every well-grouped display is what the field shows for its digits. */
  lemma ShapedIsFormatted(t: string)
    requires Shaped(t)
    ensures FormatNumber(Text.Remove(t, ',')) == t
  {
    ShapedIsGroupOfDigits(t);
    FormatIsGroup(Text.Remove(t, ','));
  }

  /** The keystroke filter: with the commas taken out, the text must be empty or all digits. */
  predicate Accepts(raw: string) {
    Digits.AllDigits(Text.Remove(raw, ','))
  }

  /** `handleNumberChange` as written: an accepted keystroke forwards the field's
      raw text, commas included. */
  function NumberChangeAsWritten(raw: string): (r: Option<string>)
    ensures r.Some? <==> Accepts(raw)
    ensures r.Some? ==> r.value == raw
  {
    if Accepts(raw) then Some(raw) else None
  }

  /** Typing a fifth digit into "1,000" forwards "1,0000", and `parseFloat`
      reads that as 1 instead of 10000. */
  lemma CommaTruncation()
    ensures FormatNumber("1000") == "1,000"
    ensures NumberChangeAsWritten("1,0000") == Some("1,0000")
    ensures Digits.ParseFloat("1,0000") == Some(1)
    ensures Text.Remove("1,0000", ',') == "10000" && Digits.Value("10000") == 10000
  {
    ShownWithComma();
    ReadUpToComma();
    TypedValue();
  }

  lemma ShownWithComma()
    ensures FormatNumber("1000") == "1,000"
  {
    FormatNumberOfDigits("1000");
    assert Group("1000") == Group("1") + "," + "000";
  }

  lemma ReadUpToComma()
    ensures Digits.ParseFloat("1,0000") == Some(1)
  {
    Digits.ParseFloatStopsAt("1", ",0000");
    assert "1" + ",0000" == "1,0000";
  }

  lemma TypedValue()
    ensures Text.Remove("1,0000", ',') == "10000" && Digits.Value("10000") == 10000
  {
    TypedDigits();
    TypedNumber();
  }

  lemma TypedDigits()
    ensures Text.Remove("1,0000", ',') == "10000"
  {
    var a, b := "1", "0000";
    RemoveAroundComma(a, b);
    Text.RemoveAbsent(a, ',');
    Text.RemoveAbsent(b, ',');
    assert a + "," + b == "1,0000";
    assert a + b == "10000";
  }

  lemma TypedNumber()
    ensures Digits.Value("10000") == 10000
  {
    assert "10000"[..4] == "1000";
    assert "1000"[..3] == "100";
    assert "100"[..2] == "10";
    assert "10"[..1] == "1";
    assert "1"[..0] == "";
  }

  /** `handleNumberChange` forwarding the comma-free digits, so that the value
      held upstream is the number the user sees. */
  function NumberChange(raw: string): (r: Option<string>)
    ensures r.Some? <==> Accepts(raw)
    ensures r.Some? ==> Digits.AllDigits(r.value) && ',' !in r.value
  {
    if Accepts(raw) then Some(Text.Remove(raw, ',')) else None
  }

  /** Whatever digits the user types, the forwarded value parses to exactly the
      number made of those digits. */
  lemma ForwardedValueParses(raw: string)
    requires NumberChange(raw).Some? && NumberChange(raw).value != ""
    ensures Digits.ParseFloat(NumberChange(raw).value) == Some(Digits.Value(Text.Remove(raw, ',')))
  {
    Digits.ParseFloatOfDigits(Text.Remove(raw, ','));
  }

  /** Leaving the shown text as it is forwards the value the field was showing. */
  lemma UnchangedFieldRoundTrips(v: string)
    requires |v| >= 1 && Digits.AllDigits(v)
    ensures NumberChange(FormatNumber(v)) == Some(v)
  {
    FormatNumberOfDigits(v);
  }

  /** A select option: a plain string or a `{ value, label }` object. */
  datatype SelectOption = Plain(text: string) | Labeled(value: string, labelText: string)

  /** An object used where a string is needed. */
  const ObjectText := "[object Object]"

  /** `option.value || option`. */
  function OptionValue(o: SelectOption): (r: string)
    ensures o.Plain? ==> r == o.text
    ensures o.Labeled? ==> r == (if o.value != "" then o.value else ObjectText)
  {
    match o
    case Plain(t) => t
    case Labeled(v, _) => if v != "" then v else ObjectText
  }

  /** `option.label || option` as an `<option>` child. A string renders; an
      object is not a valid React child, so rendering throws (`None`). */
  function OptionLabel(o: SelectOption): (r: Option<string>)
    ensures r.None? <==> o.Labeled? && o.labelText == ""
    ensures o.Plain? ==> r == Some(o.text)
    ensures o.Labeled? && o.labelText != "" ==> r == Some(o.labelText)
  {
    match o
    case Plain(t) => Some(t)
    case Labeled(_, l) => if l != "" then Some(l) else None
  }

  /** A plain option shows and submits the same text; an object with a value
      submits its value whatever its label; an object that renders shows its
      label. */
  lemma OptionValueAndLabel(o: SelectOption)
    ensures o.Plain? ==> OptionLabel(o) == Some(OptionValue(o))
    ensures o.Labeled? && o.value != "" ==> OptionValue(o) == o.value
    ensures o.Labeled? && OptionLabel(o).Some? ==> OptionLabel(o).value == o.labelText
  {
  }
}

=== FILE: goal_add_modal.dfy ===
/** The "Add Goal" dialog: field-by-field validation, per-field error clearing
    while typing, and the payload handed to the goal store's `createGoal`. */
module GoalAddModal {
  import opened Base
  import Text
  import Calendar

  /** The dialog's inputs. Number inputs are either empty or hold a number;
      date inputs are either empty or hold a day. */
  datatype GoalForm = GoalForm(
    title: string,
    category: string,
    description: string,
    goalType: string,
    metric: string,
    targetValue: Option<real>,
    startValue: Option<real>,
    startDate: Option<Calendar.CalendarDate>,
    endDate: Option<Calendar.CalendarDate>,
    frequency: string,
    remindersEnabled: bool)

  const EmptyForm := GoalForm("", "", "", "Automatic", "", None, None, None, None, "", false)

  /** The inputs, by their `name` attribute. */
  datatype Field =
    | Title | Category | Description | GoalType | Metric | TargetValue
    | StartValue | StartDate | EndDate | Frequency | RemindersEnabled

  /** The `name` attribute of each input. */
  function Name(k: Field): string {
    match k
    case Title => "title"
    case Category => "category"
    case Description => "description"
    case GoalType => "type"
    case Metric => "metric"
    case TargetValue => "target_value"
    case StartValue => "start_value"
    case StartDate => "start_date"
    case EndDate => "end_date"
    case Frequency => "frequency"
    case RemindersEnabled => "reminders_enabled"
  }

  /** Messages by input, as the component keeps them. */
  type Errors = map<Field, string>

  const TitleRequired := "Title is required"
  const CategoryRequired := "Category is required"
  const TargetPositive := "Target value must be greater than 0"
  const StartRequired := "Start date is required"
  const EndRequired := "End date is required"
  const EndAfterStart := "End date must be after start date"

  /** The date check: both dates given and the end not after the start. */
  predicate EndNotAfterStart(f: GoalForm) {
    f.startDate.Some? && f.endDate.Some? && Calendar.OnOrBefore(f.endDate.value, f.startDate.value)
  }

  /** `validateForm`'s error map: one check per input in order, the date
      comparison last so that it replaces a missing-end-date message. */
  function ValidateForm(f: GoalForm): (errors: Errors)
    ensures errors.Keys <= {Title, Category, TargetValue, StartDate, EndDate}
    ensures Title in errors <==> Text.IsBlank(f.title)
    ensures Category in errors <==> f.category == ""
    ensures TargetValue in errors <==> f.targetValue.None? || f.targetValue.value <= 0.0
    ensures StartDate in errors <==> f.startDate.None?
    ensures EndDate in errors <==> f.endDate.None? || EndNotAfterStart(f)
    ensures Title in errors ==> errors[Title] == TitleRequired
    ensures Category in errors ==> errors[Category] == CategoryRequired
    ensures TargetValue in errors ==> errors[TargetValue] == TargetPositive
    ensures StartDate in errors ==> errors[StartDate] == StartRequired
    ensures EndDate in errors ==> errors[EndDate] == if EndNotAfterStart(f) then EndAfterStart else EndRequired
  {
    var e0: Errors := map[];
    var e1 := if Text.IsBlank(f.title) then e0[Title := TitleRequired] else e0;
    var e2 := if f.category == "" then e1[Category := CategoryRequired] else e1;
    var e3 := if f.targetValue.None? || f.targetValue.value <= 0.0 then e2[TargetValue := TargetPositive] else e2;
    var e4 := if f.startDate.None? then e3[StartDate := StartRequired] else e3;
    var e5 := if f.endDate.None? then e4[EndDate := EndRequired] else e4;
    if EndNotAfterStart(f) then e5[EndDate := EndAfterStart] else e5
  }

  /** The goal invariant of the data model: a non-blank title, a category, a
      positive target, and an end date strictly after the start date. */
  predicate WellFormed(f: GoalForm) {
    && !Text.IsBlank(f.title)
    && f.category != ""
    && f.targetValue.Some? && f.targetValue.value > 0.0
    && f.startDate.Some? && f.endDate.Some?
    && !Calendar.OnOrBefore(f.endDate.value, f.startDate.value)
  }

  /** `validateForm()` answers true exactly for well-formed goals. */
  lemma ValidIffWellFormed(f: GoalForm)
    ensures |ValidateForm(f)| == 0 <==> WellFormed(f)
  {
    var e := ValidateForm(f);
    if WellFormed(f) {
      assert e.Keys == {};
    } else {
      assert e.Keys != {};
    }
  }

  /** What `createGoal` sends. */
  datatype GoalPayload = GoalPayload(
    title: string,
    category: string,
    description: Option<string>,
    goalType: string,
    metric: Option<string>,
    targetValue: real,
    startValue: real,
    startDate: Calendar.CalendarDate,
    endDate: Calendar.CalendarDate,
    frequency: Option<string>,
    remindersEnabled: bool)

  /** The payload of a well-formed form: optional texts left empty become null
      and an empty start value becomes 0. */
  function Payload(f: GoalForm): (p: GoalPayload)
    requires WellFormed(f)
    ensures p.title == f.title && p.category == f.category && p.goalType == f.goalType
    ensures p.description == NonEmpty(Some(f.description))
    ensures p.metric == NonEmpty(Some(f.metric))
    ensures p.frequency == NonEmpty(Some(f.frequency))
    ensures p.targetValue == f.targetValue.value && p.targetValue > 0.0
    ensures p.startValue == f.startValue.GetOr(0.0)
    ensures p.startDate == f.startDate.value && p.endDate == f.endDate.value
    ensures !Calendar.OnOrBefore(p.endDate, p.startDate)
    ensures p.remindersEnabled == f.remindersEnabled
  {
    GoalPayload(
      f.title, f.category,
      if f.description != "" then Some(f.description) else None,
      f.goalType,
      if f.metric != "" then Some(f.metric) else None,
      f.targetValue.value,
      if f.startValue.Some? then f.startValue.value else 0.0,
      f.startDate.value, f.endDate.value,
      if f.frequency != "" then Some(f.frequency) else None,
      f.remindersEnabled)
  }

  /** The dialog: its form, the displayed errors, and whether it is open. */
  datatype Dialog = Dialog(form: GoalForm, errors: Errors, isOpen: bool)

  /** How the awaited `createGoal` ended, as the dialog sees it: success, or a
      thrown error that may carry the backend's per-field messages. */
  datatype CreateResult = Created | Rejected(fieldErrors: Option<Errors>)

  /** `handleSave`: validate; an invalid form stops here with its errors shown
      and issues no request. A valid one is submitted; on success the dialog is
      reset and closed, on failure the backend's field errors (if any) are shown. */
  function HandleSave(d: Dialog, result: CreateResult): (r: (Dialog, Option<GoalPayload>))
    ensures r.1.Some? <==> WellFormed(d.form)
    ensures !WellFormed(d.form) ==> r.0 == d.(errors := ValidateForm(d.form))
    ensures WellFormed(d.form) ==> r.1 == Some(Payload(d.form))
    ensures WellFormed(d.form) && result.Created? ==> r.0 == Dialog(EmptyForm, map[], false)
    ensures WellFormed(d.form) && result.Rejected? ==>
      r.0.form == d.form && r.0.isOpen == d.isOpen
      && r.0.errors == result.fieldErrors.GetOr(map[])
  {
    ValidIffWellFormed(d.form);
    var errors := ValidateForm(d.form);
    if |errors| != 0 then (d.(errors := errors), None)
    else
      var p := Payload(d.form);
      match result
      case Created => (Dialog(EmptyForm, map[], false), Some(p))
      case Rejected(fe) => (d.(errors := fe.GetOr(errors)), Some(p))
  }

  /** One change event, named by the input it comes from; the checkbox input
      carries its `checked` flag, all others their value. */
  datatype FieldInput =
    | TitleInput(text: string)
    | CategoryInput(text: string)
    | DescriptionInput(text: string)
    | TypeInput(text: string)
    | MetricInput(text: string)
    | TargetInput(number: Option<real>)
    | StartValueInput(number: Option<real>)
    | StartDateInput(date: Option<Calendar.CalendarDate>)
    | EndDateInput(date: Option<Calendar.CalendarDate>)
    | FrequencyInput(text: string)
    | RemindersCheckbox(checked: bool)

  /** The input an event comes from. */
  function FieldOf(i: FieldInput): Field {
    match i
    case TitleInput(_) => Title
    case CategoryInput(_) => Category
    case DescriptionInput(_) => Description
    case TypeInput(_) => GoalType
    case MetricInput(_) => Metric
    case TargetInput(_) => TargetValue
    case StartValueInput(_) => StartValue
    case StartDateInput(_) => StartDate
    case EndDateInput(_) => EndDate
    case FrequencyInput(_) => Frequency
    case RemindersCheckbox(_) => RemindersEnabled
  }

  function SetField(f: GoalForm, i: FieldInput): GoalForm {
    match i
    case TitleInput(v) => f.(title := v)
    case CategoryInput(v) => f.(category := v)
    case DescriptionInput(v) => f.(description := v)
    case TypeInput(v) => f.(goalType := v)
    case MetricInput(v) => f.(metric := v)
    case TargetInput(v) => f.(targetValue := v)
    case StartValueInput(v) => f.(startValue := v)
    case StartDateInput(v) => f.(startDate := v)
    case EndDateInput(v) => f.(endDate := v)
    case FrequencyInput(v) => f.(frequency := v)
    case RemindersCheckbox(c) => f.(remindersEnabled := c)
  }

  /** `if (errors[name]) setErrors({ ...prev, [name]: "" })`: blank out the
      changed input's message if it shows one. */
  function ClearFieldError(errors: Errors, name: Field): (r: Errors)
    ensures r.Keys == errors.Keys
    ensures forall k :: k in r && k != name ==> r[k] == errors[k]
    ensures name in r ==> r[name] == ""
  {
    if name in errors && errors[name] != "" then errors[name := ""] else errors
  }

  /** `handleChange`: store the new value and clear that input's error only. */
  function HandleChange(d: Dialog, i: FieldInput): (r: Dialog)
    ensures r.form == SetField(d.form, i) && r.isOpen == d.isOpen
    ensures r.errors.Keys == d.errors.Keys
    ensures forall k :: k in r.errors && k != FieldOf(i) ==> r.errors[k] == d.errors[k]
    ensures FieldOf(i) in r.errors ==> r.errors[FieldOf(i)] == ""
  {
    d.(form := SetField(d.form, i), errors := ClearFieldError(d.errors, FieldOf(i)))
  }

  /** The reminders toggle button. */
  function ToggleReminders(d: Dialog): (r: Dialog)
    ensures r.form.remindersEnabled == !d.form.remindersEnabled
    ensures r == d.(form := d.form.(remindersEnabled := r.form.remindersEnabled))
  {
    d.(form := d.form.(remindersEnabled := !d.form.remindersEnabled))
  }

  /** Equal start and end dates are refused with the ordering message. */
  lemma SameDayRefused(f: GoalForm)
    requires f.startDate.Some? && f.endDate == f.startDate
    ensures ValidateForm(f)[EndDate] == EndAfterStart
  {
  }

  /** An empty target value is refused. */
  lemma EmptyTargetRefused(f: GoalForm)
    requires f.targetValue.None?
    ensures ValidateForm(f)[TargetValue] == TargetPositive
  {
  }
}

=== FILE: goal_app.dfy ===
/** The goals page: progress bars, statistics cards with fallbacks, the
    deadline table's urgency classification and the status badges. */
module GoalApp {
  import opened Base
  import GoalStore
  import Digits

  /** `Math.min(current / target * 100, 100)`. */
  function CalculateProgress(current: real, target: real): (r: real)
    requires target > 0.0
    ensures r <= 100.0
    ensures current / target * 100.0 <= 100.0 ==> r == current / target * 100.0
    ensures current / target * 100.0 > 100.0 ==> r == 100.0
    ensures current >= target ==> r == 100.0
  {
    var pct := current / target * 100.0;
    if pct < 100.0 then pct else 100.0
  }

  /** More progress never shows a shorter bar. */
  lemma ProgressMonotone(c1: real, c2: real, target: real)
    requires target > 0.0 && c1 <= c2
    ensures CalculateProgress(c1, target) <= CalculateProgress(c2, target)
  {
    assert c1 / target <= c2 / target;
  }

  /** 120 of 100 shows a full bar, not 120%. */
  lemma ProgressClampExample()
    ensures CalculateProgress(120.0, 100.0) == 100.0
  {
  }

  /** The four statistics cards. */
  datatype StatCards = StatCards(total: int, completed: int, ongoing: int, overall: real)

  /** `statistics?.field || 0`: absent statistics or absent fields show as 0. */
  function StatCardsOf(st: Option<GoalStore.Statistics>): (r: StatCards)
    ensures st.None? ==> r == StatCards(0, 0, 0, 0.0)
    ensures st.Some? ==> (r.total == st.value.totalGoals.GetOr(0)
      && r.completed == st.value.completedGoals.GetOr(0)
      && r.ongoing == st.value.ongoingGoals.GetOr(0)
      && r.overall == st.value.overallProgress.GetOr(0.0))
  {
    match st
    case None => StatCards(0, 0, 0, 0.0)
    case Some(s) => StatCards(s.totalGoals.GetOr(0), s.completedGoals.GetOr(0),
                              s.ongoingGoals.GetOr(0), s.overallProgress.GetOr(0.0))
  }

  datatype Urgency = Overdue | Urgent | Normal

  /** `isOverdue = days < 0`, `isUrgent = 0 <= days <= 7`. */
  function UrgencyOf(days: int): (r: Urgency)
    ensures r == Overdue <==> days < 0
    ensures r == Urgent <==> 0 <= days <= 7
    ensures r == Normal <==> days > 7
  {
    if days < 0 then Overdue else if days <= 7 then Urgent else Normal
  }

  /** The "days left" cell: `|days| days overdue` for past deadlines, `days days` otherwise. */
  function DaysLeftLabel(days: int): (r: string)
    ensures days < 0 ==> r == Digits.FromNat(-days) + " days overdue"
    ensures days >= 0 ==> r == Digits.FromNat(days) + " days"
  {
    if days < 0 then Digits.FromNat(-days) + " days overdue" else Digits.FromNat(days) + " days"
  }

  /** The number in the label reads back as the distance to the deadline, and
      the words after it say whether the deadline has passed. */
  lemma DaysLeftLabelReadsBack(days: int)
    ensures var n := if days < 0 then -days else days;
      var digits := Digits.FromNat(n);
      var shown := DaysLeftLabel(days);
      && |digits| < |shown|
      && shown[..|digits|] == digits
      && Digits.Value(digits) == n
      && (days < 0 <==> shown[|digits|..] == " days overdue")
  {
    var n := if days < 0 then -days else days;
    var digits := Digits.FromNat(n);
    var shown := DaysLeftLabel(days);
    var words := if days < 0 then " days overdue" else " days";
    assert shown == digits + words;
    assert shown[..|digits|] == digits;
    assert shown[|digits|..] == words;
    assert |" days"| != |" days overdue"|;
  }

  datatype Badge = CompletedBadge | OngoingBadge | RawStatus(status: string)

  /** The goal card's badge. */
  function BadgeFor(status: string): (r: Badge)
    ensures r == CompletedBadge <==> status == "completed"
    ensures r == OngoingBadge <==> status == "ongoing"
    ensures r.RawStatus? ==> r.status == status
  {
    if status == "completed" then CompletedBadge
    else if status == "ongoing" then OngoingBadge
    else RawStatus(status)
  }
}

=== FILE: goal_store.dfy ===
/** The goal store: the cached goal list, the selected goal, server statistics and
    upcoming deadlines, with one transition per store action. Each action first
    marks the store busy (`Begin`) and then settles on the server's outcome. */
module GoalStore {
  import opened Base
  import opened Server
  import Seqs

  datatype Goal = Goal(
    id: int,
    title: string,
    category: string,
    description: Option<string>,
    goalType: string,
    metric: Option<string>,
    targetValue: real,
    startValue: real,
    currentValue: real,
    status: string,
    deadline: string)

  /** Server-computed aggregates; any field may be missing from the response. */
  datatype Statistics = Statistics(
    totalGoals: Option<int>,
    completedGoals: Option<int>,
    ongoingGoals: Option<int>,
    overallProgress: Option<real>)

  datatype UpcomingDeadline = UpcomingDeadline(
    id: int,
    title: string,
    deadline: string,
    daysRemaining: int,
    progressPercentage: real,
    status: string)

  /** The `{ data, statistics }` envelope of `GET /goals`. */
  datatype GoalList = GoalList(data: seq<Goal>, statistics: Option<Statistics>)

  datatype State = State(
    goals: seq<Goal>,
    currentGoal: Option<Goal>,
    statistics: Option<Statistics>,
    upcomingDeadlines: seq<UpcomingDeadline>,
    loading: bool,
    error: Option<string>)

  /** How an action ends for its caller: it returns, or re-throws the request's error. */
  datatype Completion = Returned | Rethrown(error: HttpError)

  datatype Step = Step(state: State, completion: Completion)

  const Initial := State([], None, None, [], false, None)

  /** `set({ loading: true, error: null })`, the first half of every request action. */
  function Begin(s: State): (r: State)
    ensures r.loading && r.error.None?
    ensures r.goals == s.goals && r.currentGoal == s.currentGoal
    ensures r.statistics == s.statistics && r.upcomingDeadlines == s.upcomingDeadlines
  {
    s.(loading := true, error := None)
  }

  /** The catch branch: record the message, stop loading, re-throw. */
  function Fail(s: State, e: HttpError, fallback: string): (r: Step)
    ensures !r.state.loading && r.state.error == Some(MessageOr(e, fallback))
    ensures r.completion == Rethrown(e)
    ensures r.state.goals == s.goals && r.state.currentGoal == s.currentGoal
    ensures r.state.statistics == s.statistics && r.state.upcomingDeadlines == s.upcomingDeadlines
  {
    Step(s.(error := Some(MessageOr(e, fallback)), loading := false), Rethrown(e))
  }

  /** Goals carrying id `id` (`goal.id === goalId`). */
  predicate HasId(g: Goal, id: int) {
    g.id == id
  }

  /** `state.currentGoal?.id === goalId`. */
  predicate CurrentIs(s: State, id: int) {
    s.currentGoal.Some? && s.currentGoal.value.id == id
  }

  function FetchGoals(s: State, resp: Response<GoalList>): (r: Step)
    ensures !r.state.loading
    ensures r.state.currentGoal == s.currentGoal && r.state.upcomingDeadlines == s.upcomingDeadlines
    ensures resp.Ok? ==> (r.completion == Returned && r.state.error.None?
      && r.state.goals == resp.value.data && r.state.statistics == resp.value.statistics)
    ensures resp.Failed? ==> r == Fail(s, resp.error, "Failed to fetch goals")
  {
    var b := Begin(s);
    match resp
    case Ok(list) => Step(b.(goals := list.data, statistics := list.statistics, loading := false), Returned)
    case Failed(e) => Fail(b, e, "Failed to fetch goals")
  }

  /** A mutation's follow-up `fetchGoals`: when it throws, the mutation's own catch
      sees the same error and overwrites the message with its own fallback. */
  function Resync(s: State, refetch: Response<GoalList>, fallback: string): (r: Step)
    ensures !r.state.loading
    ensures r.state.currentGoal == s.currentGoal && r.state.upcomingDeadlines == s.upcomingDeadlines
    ensures refetch.Ok? ==> (r.completion == Returned && r.state.error.None?
      && r.state.goals == refetch.value.data && r.state.statistics == refetch.value.statistics)
    ensures refetch.Failed? ==> r == Fail(s, refetch.error, fallback)
  {
    var f := FetchGoals(s, refetch);
    match f.completion
    case Returned => f
    case Rethrown(e) => Fail(f.state, e, fallback)
  }

  /** `createGoal`: append the created goal, then resynchronise with the server. */
  function CreateGoal(s: State, post: Response<Goal>, refetch: Response<GoalList>): (r: Step)
    ensures !r.state.loading
    ensures r.state.currentGoal == s.currentGoal && r.state.upcomingDeadlines == s.upcomingDeadlines
    ensures post.Failed? ==> r == Fail(s, post.error, "Failed to create goal")
    ensures post.Ok? && refetch.Ok? ==> (r.completion == Returned && r.state.error.None?
      && r.state.goals == refetch.value.data && r.state.statistics == refetch.value.statistics)
    ensures post.Ok? && refetch.Failed? ==>
      && r.completion == Rethrown(refetch.error)
      && r.state.goals == s.goals + [post.value]
      && r.state.statistics == s.statistics
      && r.state.error == Some(MessageOr(refetch.error, "Failed to create goal"))
  {
    var b := Begin(s);
    match post
    case Failed(e) => Fail(b, e, "Failed to create goal")
    case Ok(g) => Resync(b.(goals := b.goals + [g], loading := false), refetch, "Failed to create goal")
  }

  function FetchGoal(s: State, resp: Response<Goal>): (r: Step)
    ensures !r.state.loading
    ensures r.state.goals == s.goals && r.state.statistics == s.statistics
    ensures r.state.upcomingDeadlines == s.upcomingDeadlines
    ensures resp.Ok? ==> (r.completion == Returned && r.state.error.None?
      && r.state.currentGoal == Some(resp.value))
    ensures resp.Failed? ==> r == Fail(s, resp.error, "Failed to fetch goal")
  {
    var b := Begin(s);
    match resp
    case Ok(g) => Step(b.(currentGoal := Some(g), loading := false), Returned)
    case Failed(e) => Fail(b, e, "Failed to fetch goal")
  }

  /** The success merge shared by `updateGoal` and `updateProgress`. */
  function MergeUpdated(s: State, id: int, g: Goal): (r: State)
    ensures |r.goals| == |s.goals|
    ensures forall i :: 0 <= i < |s.goals| ==>
      r.goals[i] == if s.goals[i].id == id then g else s.goals[i]
    ensures r.currentGoal == if CurrentIs(s, id) then Some(g) else s.currentGoal
    ensures r.statistics == s.statistics && r.upcomingDeadlines == s.upcomingDeadlines
    ensures !r.loading && r.error == s.error
  {
    s.(goals := Seqs.ReplaceWhere(s.goals, (x: Goal) => HasId(x, id), g),
       currentGoal := if CurrentIs(s, id) then Some(g) else s.currentGoal,
       loading := false)
  }

  /** `updateGoal`: swap the returned goal in for every goal with that id. */
  function UpdateGoal(s: State, id: int, put: Response<Goal>): (r: Step)
    ensures !r.state.loading
    ensures r.state.statistics == s.statistics && r.state.upcomingDeadlines == s.upcomingDeadlines
    ensures put.Ok? ==> (r.completion == Returned && r.state.error.None?
      && r.state == MergeUpdated(Begin(s), id, put.value))
    ensures put.Failed? ==> r == Fail(s, put.error, "Failed to update goal")
  {
    var b := Begin(s);
    match put
    case Ok(g) => Step(MergeUpdated(b, id, g), Returned)
    case Failed(e) => Fail(b, e, "Failed to update goal")
  }

  /** `deleteGoal`: drop every goal with that id, then resynchronise. */
  function DeleteGoal(s: State, id: int, del: Response<()>, refetch: Response<GoalList>): (r: Step)
    ensures !r.state.loading
    ensures r.state.upcomingDeadlines == s.upcomingDeadlines
    ensures del.Failed? ==> r == Fail(s, del.error, "Failed to delete goal")
    ensures del.Ok? ==> r.state.currentGoal == if CurrentIs(s, id) then None else s.currentGoal
    ensures del.Ok? && refetch.Ok? ==> (r.completion == Returned && r.state.error.None?
      && r.state.goals == refetch.value.data && r.state.statistics == refetch.value.statistics)
    ensures del.Ok? && refetch.Failed? ==>
      && r.completion == Rethrown(refetch.error)
      && r.state.goals == Seqs.Filter(s.goals, (x: Goal) => !HasId(x, id))
      && r.state.statistics == s.statistics
      && r.state.error == Some(MessageOr(refetch.error, "Failed to delete goal"))
  {
    var b := Begin(s);
    match del
    case Failed(e) => Fail(b, e, "Failed to delete goal")
    case Ok(_) =>
      var removed := b.(
        goals := Seqs.Filter(b.goals, (x: Goal) => !HasId(x, id)),
        currentGoal := if CurrentIs(b, id) then None else b.currentGoal,
        loading := false);
      Resync(removed, refetch, "Failed to delete goal")
  }

  /** The `{ data: { goal } }` envelope of `POST /goals/{id}/progress`. */
  datatype ProgressReply = ProgressReply(goal: Goal)

  /** `updateProgress`: merge the returned goal like `updateGoal`, then resynchronise. */
  function UpdateProgress(s: State, id: int, post: Response<ProgressReply>, refetch: Response<GoalList>): (r: Step)
    ensures !r.state.loading
    ensures r.state.upcomingDeadlines == s.upcomingDeadlines
    ensures post.Failed? ==> r == Fail(s, post.error, "Failed to update progress")
    ensures post.Ok? ==> r.state.currentGoal == if CurrentIs(s, id) then Some(post.value.goal) else s.currentGoal
    ensures post.Ok? && refetch.Ok? ==> (r.completion == Returned && r.state.error.None?
      && r.state.goals == refetch.value.data && r.state.statistics == refetch.value.statistics)
    ensures post.Ok? && refetch.Failed? ==>
      && r.completion == Rethrown(refetch.error)
      && r.state.goals == MergeUpdated(s, id, post.value.goal).goals
      && r.state.statistics == s.statistics
      && r.state.error == Some(MessageOr(refetch.error, "Failed to update progress"))
  {
    var b := Begin(s);
    match post
    case Failed(e) => Fail(b, e, "Failed to update progress")
    case Ok(reply) => Resync(MergeUpdated(b, id, reply.goal), refetch, "Failed to update progress")
  }

  function FetchUpcomingDeadlines(s: State, resp: Response<seq<UpcomingDeadline>>): (r: Step)
    ensures !r.state.loading
    ensures r.state.goals == s.goals && r.state.currentGoal == s.currentGoal
    ensures r.state.statistics == s.statistics
    ensures resp.Ok? ==> (r.completion == Returned && r.state.error.None?
      && r.state.upcomingDeadlines == resp.value)
    ensures resp.Failed? ==> r == Fail(s, resp.error, "Failed to fetch deadlines")
  {
    var b := Begin(s);
    match resp
    case Ok(ds) => Step(b.(upcomingDeadlines := ds, loading := false), Returned)
    case Failed(e) => Fail(b, e, "Failed to fetch deadlines")
  }

  /** `fetchGoalsByCategory`: replaces the goal list only; statistics, deadlines
      and the selected goal keep describing whatever they described before. */
  function FetchGoalsByCategory(s: State, resp: Response<seq<Goal>>): (r: Step)
    ensures !r.state.loading
    ensures r.state.currentGoal == s.currentGoal && r.state.statistics == s.statistics
    ensures r.state.upcomingDeadlines == s.upcomingDeadlines
    ensures resp.Ok? ==> r.completion == Returned && r.state.error.None? && r.state.goals == resp.value
    ensures resp.Failed? ==> r == Fail(s, resp.error, "Failed to fetch goals by category")
  {
    var b := Begin(s);
    match resp
    case Ok(gs) => Step(b.(goals := gs, loading := false), Returned)
    case Failed(e) => Fail(b, e, "Failed to fetch goals by category")
  }

  /** The `{ statistics }` envelope of `GET /goals-statistics`. */
  function FetchStatistics(s: State, resp: Response<Option<Statistics>>): (r: Step)
    ensures !r.state.loading
    ensures r.state.goals == s.goals && r.state.currentGoal == s.currentGoal
    ensures r.state.upcomingDeadlines == s.upcomingDeadlines
    ensures resp.Ok? ==> r.completion == Returned && r.state.error.None? && r.state.statistics == resp.value
    ensures resp.Failed? ==> r == Fail(s, resp.error, "Failed to fetch statistics")
  {
    var b := Begin(s);
    match resp
    case Ok(st) => Step(b.(statistics := st, loading := false), Returned)
    case Failed(e) => Fail(b, e, "Failed to fetch statistics")
  }

  function ClearCurrentGoal(s: State): (r: State)
    ensures r.currentGoal.None?
    ensures r.goals == s.goals && r.statistics == s.statistics && r.upcomingDeadlines == s.upcomingDeadlines
    ensures r.loading == s.loading && r.error == s.error
  {
    s.(currentGoal := None)
  }

  function ClearError(s: State): (r: State)
    ensures r.error.None?
    ensures r.goals == s.goals && r.currentGoal == s.currentGoal && r.statistics == s.statistics
    ensures r.upcomingDeadlines == s.upcomingDeadlines && r.loading == s.loading
  {
    s.(error := None)
  }

  function ResetStore(s: State): (r: State)
    ensures r == Initial
  {
    State([], None, None, [], false, None)
  }

  /** Clearing twice is clearing once. */
  lemma ClearsAreIdempotent(s: State)
    ensures ClearError(ClearError(s)) == ClearError(s)
    ensures ClearCurrentGoal(ClearCurrentGoal(s)) == ClearCurrentGoal(s)
  {
  }

  /** After a successful `deleteGoal` no goal carries the id unless the server's
      fresh list does; without the refetch, none at all, and the survivors keep
      their order. */
  lemma DeleteRemovesId(s: State, id: int, refetch: Response<GoalList>)
    requires refetch.Failed?
    ensures var r := DeleteGoal(s, id, Ok(()), refetch).state;
      && (forall g :: g in r.goals ==> g.id != id)
      && (forall g :: g in s.goals && g.id != id ==> g in r.goals)
      && Seqs.IsSubsequence(r.goals, s.goals)
  {
  }

  /** An update that matches no goal leaves the list exactly as it was. */
  lemma UpdateUnknownIdKeepsGoals(s: State, id: int, g: Goal)
    requires forall i :: 0 <= i < |s.goals| ==> s.goals[i].id != id
    ensures UpdateGoal(s, id, Ok(g)).state.goals == s.goals
  {
    Seqs.ReplaceNoHit(s.goals, (x: Goal) => HasId(x, id), g);
  }

  /** After any successful mutation followed by a successful refetch, the cache is
      exactly what the server last listed: the local edit leaves no trace. */
  lemma MutationsEndInServerState(s: State, id: int, g: Goal, refetch: GoalList)
    ensures CreateGoal(s, Ok(g), Ok(refetch)).state.goals == refetch.data
    ensures DeleteGoal(s, id, Ok(()), Ok(refetch)).state.goals == refetch.data
    ensures UpdateProgress(s, id, Ok(ProgressReply(g)), Ok(refetch)).state.goals == refetch.data
    ensures CreateGoal(s, Ok(g), Ok(refetch)).state.statistics == refetch.statistics
    ensures DeleteGoal(s, id, Ok(()), Ok(refetch)).state.statistics == refetch.statistics
    ensures UpdateProgress(s, id, Ok(ProgressReply(g)), Ok(refetch)).state.statistics == refetch.statistics
  {
  }
}

=== FILE: grid.dfy ===
/** The dashboard grid's notes card: short labels for the first notes and an
    edit dialog that writes back through the note store. */
module Grid {
  import opened Base
  import opened Server
  import NoteStore
  import Seqs

  /** `truncateText(text, maxLength)`: short texts unchanged, long ones cut to
      `maxLength` characters followed by an ellipsis. */
  function TruncateText(text: string, maxLength: nat): (r: string)
    ensures |text| <= maxLength ==> r == text
    ensures |text| > maxLength ==> (|r| == maxLength + 3 && r[..maxLength] == text[..maxLength]
      && r[maxLength..] == "...")
    ensures |r| <= maxLength + 3
  {
    if |text| <= maxLength then text else text[..maxLength] + "..."
  }

  /** Every character fits in one UTF-16 code unit (the Basic Multilingual Plane). */
  predicate InBmp(s: string) {
    forall i :: 0 <= i < |s| ==> s[i] as int <= 0xFFFF
  }

  /** JavaScript's `length`: UTF-16 code units, two for a character above U+FFFF. */
  function Utf16Length(s: string): nat {
    if |s| == 0 then 0 else (if s[0] as int > 0xFFFF then 2 else 1) + Utf16Length(s[1..])
  }

  lemma {:induction false} BmpLength(s: string)
    requires InBmp(s)
    ensures Utf16Length(s) == |s|
  {
    if |s| > 0 {
      assert InBmp(s[1..]) by {
        forall i | 0 <= i < |s[1..]| ensures s[1..][i] as int <= 0xFFFF {
          assert s[1..][i] == s[i + 1];
        }
      }
      BmpLength(s[1..]);
    }
  }

  /** On Basic Multilingual Plane text, counting characters is counting UTF-16
      code units, so the model cuts where `text.length` and `substring` do. */
  lemma TruncateTextInBmp(text: string, maxLength: nat)
    requires InBmp(text)
    ensures Utf16Length(text) <= maxLength ==> TruncateText(text, maxLength) == text
    ensures Utf16Length(text) > maxLength ==>
      maxLength < |text| && TruncateText(text, maxLength) == text[..maxLength] + "..."
  {
    BmpLength(text);
  }

  /** The edit dialog's local state. */
  datatype Editor = Editor(isOpen: bool, noteId: Option<int>, content: string)

  const ClosedEditor := Editor(false, None, "")

  /** `handleEdit(note)`: open on the note, seeded with its content, else its title, else `""`. */
  function HandleEdit(note: NoteStore.Note): (r: Editor)
    ensures r.isOpen && r.noteId == Some(note.id)
    ensures note.content != "" ==> r.content == note.content
    ensures note.content == "" && note.title.Some? ==> r.content == note.title.value
    ensures note.content == "" && note.title.None? ==> r.content == ""
  {
    Editor(true, Some(note.id), if note.content != "" then note.content else OrEmpty(note.title))
  }

  /** `!editNoteId`: no note selected, or the falsy id 0. */
  predicate NoNoteSelected(ed: Editor) {
    ed.noteId.None? || ed.noteId.value == 0
  }

  /** `handleSaveEdit`: without a selected note nothing happens; otherwise the
      note's content is sent through `updateNote(id, null, content)` and the
      dialog is closed and emptied whatever the server answered. */
  function HandleSaveEdit(ed: Editor, notes: NoteStore.State, put: Response<NoteStore.Note>)
    : (r: (Editor, NoteStore.State))
    ensures NoNoteSelected(ed) ==> r == (ed, notes)
    ensures !NoNoteSelected(ed) ==> (r.0 == ClosedEditor
      && r.1 == NoteStore.UpdateNote(notes, ed.noteId.value, put))
  {
    if NoNoteSelected(ed) then (ed, notes)
    else (ClosedEditor, NoteStore.UpdateNote(notes, ed.noteId.value, put))
  }

  /** A note's line in the card: its title when it has a non-empty one,
      otherwise its content, cut to 40 characters. */
  function NoteLabel(n: NoteStore.Note): (r: string)
    ensures |r| <= 43
    ensures n.title.Some? && n.title.value != "" ==> r == TruncateText(n.title.value, 40)
    ensures n.title.None? || n.title.value == "" ==> r == TruncateText(n.content, 40)
  {
    if n.title.Some? && n.title.value != "" then TruncateText(n.title.value, 40)
    else TruncateText(n.content, 40)
  }

  /** `notes.slice(0, 5).map(...)`: the labels of at most the first five notes, in order. */
  function NoteLabels(notes: seq<NoteStore.Note>): (r: seq<string>)
    ensures |r| == if |notes| < 5 then |notes| else 5
    ensures forall i :: 0 <= i < |r| ==> r[i] == NoteLabel(notes[i])
    ensures forall i :: 0 <= i < |r| ==> |r[i]| <= 43
  {
    var shown := Seqs.Take(notes, 5);
    seq(|shown|, i requires 0 <= i < |shown| => NoteLabel(shown[i]))
  }
}

=== FILE: journal_app.dfy ===
/** The journal page: the search box and filter panel over the cached entries,
    and the tag and mood choices offered by the filter panel. */
module JournalApp {
  import opened Base
  import Text
  import Seqs
  import Calendar
  import opened JournalStore

  datatype Filters = Filters(
    tag: string,
    mood: string,
    dateFrom: Option<Calendar.CalendarDate>,
    dateTo: Option<Calendar.CalendarDate>)

  const ClearedFilters := Filters("", "", None, None)

  /** Case-insensitive substring search over the title, the content and the
      entry date as the locale writes it (`dateText`, which the model takes as given). */
  predicate MatchesSearch(e: Entry, query: string, dateText: Calendar.CalendarDate -> string) {
    var q := Text.Lower(query);
    || (e.title.Some? && Text.Includes(Text.Lower(e.title.value), q))
    || (e.content.Some? && Text.Includes(Text.Lower(e.content.value), q))
    || Text.Includes(Text.Lower(dateText(e.entryDate)), q)
  }

  predicate MatchesTag(e: Entry, f: Filters) {
    f.tag == "" || (e.tags.Some? && f.tag in e.tags.value)
  }

  predicate MatchesMood(e: Entry, f: Filters) {
    f.mood == "" || e.mood == Some(f.mood)
  }

  /** Inclusive at both ends; each bound may be left open. */
  predicate MatchesDateRange(e: Entry, f: Filters) {
    && (f.dateFrom.None? || Calendar.OnOrBefore(f.dateFrom.value, e.entryDate))
    && (f.dateTo.None? || Calendar.OnOrBefore(e.entryDate, f.dateTo.value))
  }

  predicate Shown(e: Entry, query: string, f: Filters, dateText: Calendar.CalendarDate -> string) {
    MatchesSearch(e, query, dateText) && MatchesTag(e, f) && MatchesMood(e, f) && MatchesDateRange(e, f)
  }

  /** `filteredEntries`: the entries passing every test, in their original order. */
  function FilteredEntries(entries: seq<Entry>, query: string, f: Filters,
                           dateText: Calendar.CalendarDate -> string): (r: seq<Entry>)
    ensures forall e :: e in r <==> e in entries && Shown(e, query, f, dateText)
    ensures Seqs.IsSubsequence(r, entries)
    ensures forall e :: multiset(r)[e] == if Shown(e, query, f, dateText) then multiset(entries)[e] else 0
  {
    Seqs.Filter(entries, (e: Entry) => Shown(e, query, f, dateText))
  }

  /** The empty query matches every entry. */
  lemma EmptyQueryMatchesAll(e: Entry, dateText: Calendar.CalendarDate -> string)
    ensures MatchesSearch(e, "", dateText)
  {
    Text.IncludesEmpty(Text.Lower(dateText(e.entryDate)));
  }

  lemma LowerIdempotent(s: string)
    ensures Text.Lower(Text.Lower(s)) == Text.Lower(s)
  {
  }

  /** The search ignores the case of the query. */
  lemma SearchIgnoresQueryCase(e: Entry, query: string, dateText: Calendar.CalendarDate -> string)
    ensures MatchesSearch(e, Text.Lower(query), dateText) == MatchesSearch(e, query, dateText)
  {
    LowerIdempotent(query);
  }

  /** With no query and no filters the whole journal is listed. */
  lemma NothingFilteredByDefault(entries: seq<Entry>, dateText: Calendar.CalendarDate -> string)
    ensures FilteredEntries(entries, "", ClearedFilters, dateText) == entries
  {
    forall e | e in entries ensures Shown(e, "", ClearedFilters, dateText) {
      EmptyQueryMatchesAll(e, dateText);
    }
    Seqs.FilterAll(entries, (e: Entry) => Shown(e, "", ClearedFilters, dateText));
  }

  /** With two entries, exactly the ones passing the tests are listed, in order. */
  lemma FilterPair(a: Entry, b: Entry, query: string, f: Filters, dateText: Calendar.CalendarDate -> string)
    ensures FilteredEntries([a, b], query, f, dateText)
         == (if Shown(a, query, f, dateText) then [a] else []) + (if Shown(b, query, f, dateText) then [b] else [])
  {
    var keep := (e: Entry) => Shown(e, query, f, dateText);
    Seqs.FilterCons(a, [b], keep);
    Seqs.FilterCons(b, [], keep);
    assert [a] + [b] == [a, b] && [b] + [] == [b];
  }

  /** A trip in May tagged "travel" and work in June tagged "job": the tag
      filter "travel" keeps the trip. */
  lemma TagFilterExample(trip: Entry, work: Entry, dateText: Calendar.CalendarDate -> string)
    requires trip.tags == Some(["travel"]) && work.tags == Some(["job"])
    ensures FilteredEntries([trip, work], "", Filters("travel", "", None, None), dateText) == [trip]
  {
    EmptyQueryMatchesAll(trip, dateText);
    EmptyQueryMatchesAll(work, dateText);
    assert "travel" !in ["job"];
    FilterPair(trip, work, "", Filters("travel", "", None, None), dateText);
  }

  /** The same two entries: a start date of 15 May keeps the work entry. */
  lemma DateFilterExample(trip: Entry, work: Entry, dateText: Calendar.CalendarDate -> string)
    requires trip.entryDate == Calendar.CalendarDate(2024, 5, 1)
    requires work.entryDate == Calendar.CalendarDate(2024, 6, 1)
    ensures FilteredEntries([trip, work], "", Filters("", "", Some(Calendar.CalendarDate(2024, 5, 15)), None), dateText)
         == [work]
  {
    EmptyQueryMatchesAll(trip, dateText);
    EmptyQueryMatchesAll(work, dateText);
    FilterPair(trip, work, "", Filters("", "", Some(Calendar.CalendarDate(2024, 5, 15)), None), dateText);
  }

  function TagsOf(e: Entry): seq<string> {
    e.tags.GetOr([])
  }

  /** `allTags`: every tag used by some entry, each once. */
  function AllTags(entries: seq<Entry>): (r: seq<string>)
    ensures Seqs.NoDuplicates(r)
    ensures forall t :: t in r <==> exists i :: 0 <= i < |entries| && t in TagsOf(entries[i])
  {
    var ss := seq(|entries|, i requires 0 <= i < |entries| => TagsOf(entries[i]));
    assert forall i :: 0 <= i < |entries| ==> ss[i] == TagsOf(entries[i]);
    Seqs.Dedup(Seqs.Concat(ss))
  }

  /** The non-empty moods, in entry order. */
  function MoodsOf(entries: seq<Entry>): (r: seq<string>)
    ensures forall m :: m in r <==> m != "" && exists i :: 0 <= i < |entries| && entries[i].mood == Some(m)
  {
    if |entries| == 0 then []
    else
      var rest := MoodsOf(entries[1..]);
      assert forall i :: 1 <= i < |entries| ==> entries[i] == entries[1..][i - 1];
      var m := entries[0].mood;
      if m.Some? && m.value != "" then [m.value] + rest else rest
  }

  /** `allMoods`: every non-empty mood used by some entry, each once. */
  function AllMoods(entries: seq<Entry>): (r: seq<string>)
    ensures Seqs.NoDuplicates(r)
    ensures forall m :: m in r <==> m != "" && exists i :: 0 <= i < |entries| && entries[i].mood == Some(m)
  {
    Seqs.Dedup(MoodsOf(entries))
  }

  /** `activeFiltersCount`: how many of the four filters are set. */
  function ActiveFiltersCount(f: Filters): (n: nat)
    ensures n <= 4
    ensures n == 0 <==> f == ClearedFilters
    ensures n == 4 <==> f.tag != "" && f.mood != "" && f.dateFrom.Some? && f.dateTo.Some?
  {
    (if f.tag != "" then 1 else 0) + (if f.mood != "" then 1 else 0)
    + (if f.dateFrom.Some? then 1 else 0) + (if f.dateTo.Some? then 1 else 0)
  }

  /** `clearFilters`. */
  function ClearFilters(): (f: Filters)
    ensures ActiveFiltersCount(f) == 0
    ensures forall e: Entry :: MatchesTag(e, f) && MatchesMood(e, f) && MatchesDateRange(e, f)
  {
    ClearedFilters
  }
}

=== FILE: journal_entry_modal.dfy ===
/** The journal composer: the comma-separated tag field, the day picker for the
    current month and the save button. */
module JournalEntryModal {
  import opened Base
  import Text
  import Calendar
  import opened Server
  import opened JournalStore

  /** Trims every piece and drops the pieces that end up empty. */
  function CleanTags(pieces: seq<string>): seq<string> {
    if |pieces| == 0 then []
    else
      var t := Text.Trim(pieces[0]);
      (if t == "" then [] else [t]) + CleanTags(pieces[1..])
  }

  predicate CommaFree(pieces: seq<string>) {
    forall i :: 0 <= i < |pieces| ==> ',' !in pieces[i]
  }

  /** A tag the user can type: non-empty, without commas, without surrounding space. */
  predicate WellFormedTag(t: string) {
    t != "" && ',' !in t && Text.IsTrimmed(t)
  }

  predicate AllWellFormed(tags: seq<string>) {
    forall i :: 0 <= i < |tags| ==> WellFormedTag(tags[i])
  }

  lemma AllWellFormedCons(t: string, tags: seq<string>)
    requires WellFormedTag(t) && AllWellFormed(tags)
    ensures AllWellFormed([t] + tags)
  {
    assert forall i :: 1 <= i < |[t] + tags| ==> ([t] + tags)[i] == tags[i - 1];
  }

  lemma CommaFreeTail(pieces: seq<string>)
    requires |pieces| > 0 && CommaFree(pieces)
    ensures CommaFree(pieces[1..])
  {
    assert forall i :: 0 <= i < |pieces[1..]| ==> pieces[1..][i] == pieces[i + 1];
  }

  /** Trimming comma-free pieces and dropping the empty ones leaves well-formed tags. */
  lemma {:induction false} CleanTagsWellFormed(pieces: seq<string>)
    requires CommaFree(pieces)
    ensures AllWellFormed(CleanTags(pieces))
  {
    if |pieces| > 0 {
      var p, rest := pieces[0], pieces[1..];
      CommaFreeTail(pieces);
      CleanTagsWellFormed(rest);
      assert [p] + rest == pieces;
      CleanTagsCons(p, rest);
      var t := Text.Trim(p);
      if t != "" {
        Text.TrimKeepsOut(p, ',');
        AllWellFormedCons(t, CleanTags(rest));
      }
    }
  }

  /** The tags `handleSave` sends for what is in the tag field: every one
      non-empty, comma-free and trimmed. */
  function ParseTags(input: string): (r: seq<string>)
    ensures AllWellFormed(r)
  {
    var pieces := Text.Split(input, ',');
    CleanTagsWellFormed(pieces);
    CleanTags(pieces)
  }

  /** What the tag field shows for the tags in the form. */
  function JoinTags(tags: seq<string>): string {
    Text.Join(tags, ", ")
  }

  lemma CleanTagsCons(p: string, rest: seq<string>)
    ensures CleanTags([p] + rest)
         == (if Text.Trim(p) == "" then [] else [Text.Trim(p)]) + CleanTags(rest)
  {
    assert ([p] + rest)[1..] == rest;
  }

  /** The space the join puts after each comma is trimmed away again. */
  lemma ParseIgnoresLeadingSpace(x: string)
    ensures ParseTags(" " + x) == ParseTags(x)
  {
    var pieces := Text.Split(x, ',');
    var p, rest := pieces[0], pieces[1..];
    assert [p] + rest == pieces;
    Text.SplitCons(' ', x, ',');
    assert [' '] + x == " " + x && [' '] + p == " " + p;
    var spaced := Text.Split(" " + x, ',');
    assert spaced == [" " + p] + rest;
    CleanTagsCons(" " + p, rest);
    CleanTagsCons(p, rest);
    Text.TrimSpacePrefix(p);
    assert CleanTags(spaced) == CleanTags(pieces);
  }

  lemma ParseEmpty()
    ensures ParseTags("") == []
  {
    assert Text.Split("", ',') == [""];
    assert Text.Trim("") == "";
    assert CleanTags([]) == [];
    CleanTagsCons("", []);
    assert [""] + [] == [""];
  }

  lemma ParseOne(t: string)
    requires WellFormedTag(t)
    ensures ParseTags(t) == [t]
  {
    Text.SplitNoSep(t, ',');
    Text.TrimTrimmed(t);
    CleanTagsCons(t, []);
    assert [t] + [] == [t];
  }

  lemma ParseCons(t: string, x: string)
    requires WellFormedTag(t)
    ensures ParseTags(t + ", " + x) == [t] + ParseTags(x)
  {
    assert t + ", " + x == t + [','] + (" " + x);
    Text.SplitAtFirst(t, ',', " " + x);
    CleanTagsCons(t, Text.Split(" " + x, ','));
    Text.TrimTrimmed(t);
    ParseIgnoresLeadingSpace(x);
  }

  /** Opening the composer on well-formed tags and saving without touching the
      tag field sends exactly the same tags. */
  lemma {:induction false} ParseJoinRoundTrip(tags: seq<string>)
    requires AllWellFormed(tags)
    ensures ParseTags(JoinTags(tags)) == tags
  {
    if |tags| == 0 {
      ParseEmpty();
    } else if |tags| == 1 {
      ParseOne(tags[0]);
    } else {
      ParseCons(tags[0], JoinTags(tags[1..]));
      ParseJoinRoundTrip(tags[1..]);
      assert [tags[0]] + tags[1..] == tags;
    }
  }

  lemma ParseSkipsEmptyPiece(x: string)
    ensures ParseTags("," + x) == ParseTags(x)
  {
    Text.SplitAtFirst("", ',', x);
    assert "" + [','] + x == "," + x;
    assert Text.Trim("") == "";
    CleanTagsCons("", Text.Split(x, ','));
  }

  lemma ParseTrailingComma(t: string)
    requires WellFormedTag(t)
    ensures ParseTags(t + ",") == [t]
  {
    Text.SplitAtFirst(t, ',', "");
    assert t + [','] + "" == t + ",";
    Text.TrimTrimmed(t);
    CleanTagsCons(t, Text.Split("", ','));
    ParseEmpty();
    assert [t] + [] == [t];
  }

  /** A blank piece and a trailing comma never reach the server:
      "travel, ,work," is sent as the two tags "travel" and "work". */
  lemma ParseDropsBlankPieces(a: string, b: string)
    requires WellFormedTag(a) && WellFormedTag(b)
    ensures ParseTags(a + ", ," + b + ",") == [a, b]
  {
    assert a + ", ," + b + "," == a + ", " + ("," + (b + ","));
    ParseCons(a, "," + (b + ","));
    ParseSkipsEmptyPiece(b + ",");
    ParseTrailingComma(b);
  }

  /** `daysInMonth`, computed the way the composer does: day 0 of next month. */
  function DaysInCurrentMonth(today: Calendar.CalendarDate): (n: int)
    requires Calendar.Valid(today)
    ensures n == Calendar.DaysInMonth(today.year, today.month)
  {
    var next := Calendar.NextMonth(today.year, today.month);
    Calendar.DayZeroIsLastDay(today.year, today.month);
    Calendar.MakeDate(next.0, next.1, 0).day
  }

  /** The day buttons, 1 to the length of the current month. */
  function SelectableDays(today: Calendar.CalendarDate): (r: seq<int>)
    requires Calendar.Valid(today)
    ensures |r| == Calendar.DaysInMonth(today.year, today.month)
    ensures forall i :: 0 <= i < |r| ==> r[i] == i + 1
  {
    seq(DaysInCurrentMonth(today), i => i + 1)
  }

  /** The save button is enabled only with a title and content and no request running. */
  predicate SaveEnabled(f: FormData, isLoading: bool) {
    f.title != "" && f.content != "" && !isLoading
  }

  /** The payload `handleSave` builds: the chosen day of the current month (so an
      edited entry moves to the current month), the parsed tags, and no theme. */
  function Payload(f: FormData, tagInput: string, today: Calendar.CalendarDate): (p: EntryPayload)
    requires Calendar.Valid(today)
    ensures p.title == f.title && p.content == f.content && p.mood == f.mood
    ensures p.tags == ParseTags(tagInput)
    ensures Calendar.Valid(p.entryDate)
    ensures 1 <= f.selectedDate <= Calendar.DaysInMonth(today.year, today.month)
            ==> p.entryDate == Calendar.CalendarDate(today.year, today.month, f.selectedDate)
  {
    EntryPayload(f.title, f.content, ParseTags(tagInput), f.mood,
                 Calendar.MakeDate(today.year, today.month, f.selectedDate))
  }

  /** `handleSave`: without a title or content nothing happens; otherwise the
      store's `saveEntry` is called with the payload, and on success the composer
      closes with the saved entry in the list. */
  function HandleSave(s: State, tagInput: string, today: Calendar.CalendarDate,
                      resp: Response<Entry>): (r: Option<SaveOutcome>)
    requires Calendar.Valid(today)
    ensures r.Some? <==> s.formData.title != "" && s.formData.content != ""
    ensures r.Some? ==> r.value.call.payload == Payload(s.formData, tagInput, today)
    ensures r.Some? && resp.Failed? ==> r.value.state.isModalOpen == s.isModalOpen
    ensures r.Some? && resp.Ok? ==>
      !r.value.state.isModalOpen && r.value.result == Some(resp.value) && r.value.state.error.None?
    ensures r.Some? && resp.Ok? && r.value.call.Post? ==> r.value.state.entries == [resp.value] + s.entries
    ensures r.None? ==> s.formData.title == "" || s.formData.content == ""
  {
    if s.formData.title != "" && s.formData.content != "" then
      var o := SaveEntry(s, Payload(s.formData, tagInput, today), resp, today.day);
      Some(o)
    else None
  }

  /** A successful save of an edited entry swaps the returned entry in for every
      entry with the edited id and leaves the others where they were. */
  lemma SavedEditReplacesEntry(s: State, tagInput: string, today: Calendar.CalendarDate, e: Entry)
    requires Calendar.Valid(today)
    requires s.formData.title != "" && s.formData.content != ""
    requires s.modalMode == Edit && s.currentEntry.Some?
    ensures var r := HandleSave(s, tagInput, today, Ok(e));
      && r.Some? && |r.value.state.entries| == |s.entries|
      && forall i :: 0 <= i < |s.entries| ==>
           r.value.state.entries[i] == if s.entries[i].id == s.currentEntry.value.id then e else s.entries[i]
  {
  }

  /** Whenever the button is enabled, pressing it sends a request. */
  lemma EnabledSaveSends(s: State, tagInput: string, today: Calendar.CalendarDate, resp: Response<Entry>)
    requires Calendar.Valid(today)
    requires SaveEnabled(s.formData, s.isLoading)
    ensures HandleSave(s, tagInput, today, resp).Some?
  {
  }

  /** Every day offered by the picker is saved as that day of the current month. */
  lemma PickedDayIsSaved(f: FormData, tagInput: string, today: Calendar.CalendarDate, i: int)
    requires Calendar.Valid(today)
    requires 0 <= i < |SelectableDays(today)|
    requires f.selectedDate == SelectableDays(today)[i]
    ensures Payload(f, tagInput, today).entryDate
         == Calendar.CalendarDate(today.year, today.month, i + 1)
  {
  }

  /** Editing, in April, an entry written on 31 March: its day 31 does not exist
      in April, so the entry is saved as 1 May. */
  lemma EditedEntryRollsOver(f: FormData, tagInput: string)
    requires f.selectedDate == 31
    ensures Payload(f, tagInput, Calendar.CalendarDate(2026, 4, 10)).entryDate
         == Calendar.CalendarDate(2026, 5, 1)
  {
    Calendar.Rollover(2026, 4, 31);
  }

  /** Opening an entry with well-formed tags and saving unchanged sends its tags. */
  lemma ReopenedTagsSurvive(e: Entry, today: Calendar.CalendarDate)
    requires Calendar.Valid(today)
    requires AllWellFormed(e.tags.GetOr([]))
    ensures Payload(SeedForm(e), JoinTags(SeedForm(e).tags), today).tags == e.tags.GetOr([])
  {
    ParseJoinRoundTrip(e.tags.GetOr([]));
  }
}

=== FILE: journal_store.dfy ===
/** The journal store: cached entries plus the composer modal, a two-mode
    create/edit machine whose form is seeded from the entry being edited.
    Failures are recorded in `error` and reported by a null/false result; they
    are never re-thrown. `today` is the clock's day of the month
    (`new Date().getDate()`), used for a blank form's selected day. */
module JournalStore {
  import opened Base
  import opened Server
  import Seqs
  import Calendar

  datatype Entry = Entry(
    id: int,
    title: Option<string>,
    content: Option<string>,
    tags: Option<seq<string>>,
    mood: Option<string>,
    theme: Option<string>,
    entryDate: Calendar.CalendarDate)

  datatype Mode = Create | Edit

  datatype FormData = FormData(
    title: string,
    content: string,
    tags: seq<string>,
    mood: string,
    theme: Option<string>,
    selectedDate: int)

  /** The body sent by the composer's save. */
  datatype EntryPayload = EntryPayload(
    title: string,
    content: string,
    tags: seq<string>,
    mood: string,
    entryDate: Calendar.CalendarDate)

  datatype State = State(
    entries: seq<Entry>,
    currentEntry: Option<Entry>,
    isLoading: bool,
    error: Option<string>,
    isModalOpen: bool,
    modalMode: Mode,
    formData: FormData)

  function BlankForm(today: int): (f: FormData)
    ensures f.title == "" && f.content == "" && f.tags == [] && f.mood == ""
    ensures f.theme.None? && f.selectedDate == today
  {
    FormData("", "", [], "", None, today)
  }

  function Initial(today: int): (s: State)
    ensures s.entries == [] && s.currentEntry.None? && !s.isLoading && s.error.None?
    ensures !s.isModalOpen && s.modalMode == Create && s.formData == BlankForm(today)
  {
    State([], None, false, None, false, Create, BlankForm(today))
  }

  /** The form an edit starts from: missing text fields read as empty, missing tags
      as none, a missing or empty theme as no theme, and the selected day is the
      entry's day of the month. */
  function SeedForm(e: Entry): (f: FormData)
    ensures f.title == OrEmpty(e.title) && f.content == OrEmpty(e.content)
    ensures f.tags == e.tags.GetOr([]) && f.mood == OrEmpty(e.mood)
    ensures f.theme == NonEmpty(e.theme)
    ensures f.selectedDate == e.entryDate.day
  {
    FormData(OrEmpty(e.title), OrEmpty(e.content), e.tags.GetOr([]), OrEmpty(e.mood),
             NonEmpty(e.theme), e.entryDate.day)
  }

  /** `openModal(mode = "create", entry = null)`. */
  function OpenModal(s: State, mode: string, entry: Option<Entry>, today: int): (r: State)
    ensures r.isModalOpen
    ensures r.entries == s.entries && r.isLoading == s.isLoading && r.error == s.error
    ensures mode == "edit" && entry.Some? ==>
      r.modalMode == Edit && r.currentEntry == entry && r.formData == SeedForm(entry.value)
    ensures !(mode == "edit" && entry.Some?) ==>
      r.modalMode == Create && r.currentEntry.None? && r.formData == BlankForm(today)
  {
    if mode == "edit" && entry.Some? then
      s.(isModalOpen := true, modalMode := Edit, currentEntry := entry, formData := SeedForm(entry.value))
    else
      s.(isModalOpen := true, modalMode := Create, currentEntry := None, formData := BlankForm(today))
  }

  function CloseModal(s: State, today: int): (r: State)
    ensures !r.isModalOpen && r.modalMode == Create && r.currentEntry.None?
    ensures r.formData == BlankForm(today)
    ensures r.entries == s.entries && r.isLoading == s.isLoading && r.error == s.error
  {
    s.(isModalOpen := false, modalMode := Create, currentEntry := None, formData := BlankForm(today))
  }

  /** Re-opening an entry after discarding its edit shows the same form again:
      nothing of the discarded state leaks into the second opening. */
  lemma ReopenEditSameForm(s: State, e: Entry, t1: int, t2: int, t3: int)
    ensures var first := OpenModal(s, "edit", Some(e), t1);
      OpenModal(CloseModal(first, t2), "edit", Some(e), t3).formData == first.formData
  {
  }

  /** One `updateFormData(field, value)` call, with the value's type fixed by the field. */
  datatype FieldUpdate =
    | SetTitle(title: string)
    | SetContent(content: string)
    | SetTags(tags: seq<string>)
    | SetMood(mood: string)
    | SetTheme(theme: Option<string>)
    | SetSelectedDate(day: int)

  function ApplyToForm(f: FormData, u: FieldUpdate): FormData {
    match u
    case SetTitle(v) => f.(title := v)
    case SetContent(v) => f.(content := v)
    case SetTags(v) => f.(tags := v)
    case SetMood(v) => f.(mood := v)
    case SetTheme(v) => f.(theme := v)
    case SetSelectedDate(v) => f.(selectedDate := v)
  }

  function UpdateFormData(s: State, u: FieldUpdate): (r: State)
    ensures r == s.(formData := r.formData)
    ensures u.SetTitle? ==> r.formData == s.formData.(title := u.title)
    ensures u.SetContent? ==> r.formData == s.formData.(content := u.content)
    ensures u.SetTags? ==> r.formData == s.formData.(tags := u.tags)
    ensures u.SetMood? ==> r.formData == s.formData.(mood := u.mood)
    ensures u.SetTheme? ==> r.formData == s.formData.(theme := u.theme)
    ensures u.SetSelectedDate? ==> r.formData == s.formData.(selectedDate := u.day)
  {
    s.(formData := ApplyToForm(s.formData, u))
  }

  function ResetFormData(s: State, today: int): (r: State)
    ensures r == s.(formData := BlankForm(today))
  {
    s.(formData := BlankForm(today))
  }

  function Begin(s: State): (r: State)
    ensures r.isLoading && r.error.None?
    ensures r.entries == s.entries && r.currentEntry == s.currentEntry
  {
    s.(isLoading := true, error := None)
  }

  /** The catch branch: `set({ error: error.message, isLoading: false })`. */
  function Fail(s: State, e: HttpError): (r: State)
    ensures !r.isLoading && r.error == Some(e.message)
    ensures r == s.(isLoading := false, error := Some(e.message))
  {
    s.(error := Some(e.message), isLoading := false)
  }

  /** A state with a result: `null`/`false` is `None`/`false` here. */
  datatype Reply<T> = Reply(state: State, result: T)

  function FetchEntries(s: State, resp: Response<seq<Entry>>): (r: State)
    ensures !r.isLoading
    ensures resp.Ok? ==> r == s.(entries := resp.value, isLoading := false, error := None)
    ensures resp.Failed? ==> r == Fail(s, resp.error)
  {
    var b := Begin(s);
    match resp
    case Ok(es) => b.(entries := es, isLoading := false)
    case Failed(e) => Fail(b, e)
  }

  function FetchEntry(s: State, resp: Response<Entry>): (r: Reply<Option<Entry>>)
    ensures !r.state.isLoading && r.state.entries == s.entries
    ensures resp.Ok? ==> (r.result == Some(resp.value) && r.state.currentEntry == Some(resp.value)
      && r.state.error.None?)
    ensures resp.Failed? ==> r.result.None? && r.state == Fail(s, resp.error)
  {
    var b := Begin(s);
    match resp
    case Ok(e) => Reply(b.(currentEntry := Some(e), isLoading := false), Some(e))
    case Failed(err) => Reply(Fail(b, err), None)
  }

  /** `createEntry`: the new entry goes in front of the list. */
  function CreateEntry(s: State, post: Response<Entry>): (r: Reply<Option<Entry>>)
    ensures !r.state.isLoading && r.state.currentEntry == s.currentEntry
    ensures r.state.isModalOpen == s.isModalOpen && r.state.modalMode == s.modalMode
    ensures r.state.formData == s.formData
    ensures post.Ok? ==> (r.result == Some(post.value) && r.state.error.None?
      && r.state.entries == [post.value] + s.entries)
    ensures post.Failed? ==> r.result.None? && r.state == Fail(s, post.error)
  {
    var b := Begin(s);
    match post
    case Ok(e) => Reply(b.(entries := [e] + b.entries, isLoading := false), Some(e))
    case Failed(err) => Reply(Fail(b, err), None)
  }

  /** `entry.id === id` on the selected entry. */
  predicate CurrentIs(s: State, id: int) {
    s.currentEntry.Some? && s.currentEntry.value.id == id
  }

  /** `updateEntry`: swap the returned entry in for every entry with that id. */
  function UpdateEntry(s: State, id: int, put: Response<Entry>): (r: Reply<Option<Entry>>)
    ensures !r.state.isLoading
    ensures r.state.isModalOpen == s.isModalOpen && r.state.modalMode == s.modalMode
    ensures r.state.formData == s.formData
    ensures put.Ok? ==> r.result == Some(put.value) && r.state.error.None?
    ensures put.Ok? ==> |r.state.entries| == |s.entries| && forall i :: 0 <= i < |s.entries| ==>
      r.state.entries[i] == if s.entries[i].id == id then put.value else s.entries[i]
    ensures put.Ok? ==> r.state.currentEntry == if CurrentIs(s, id) then Some(put.value) else s.currentEntry
    ensures put.Failed? ==> r.result.None? && r.state == Fail(s, put.error)
  {
    var b := Begin(s);
    match put
    case Ok(e) =>
      Reply(b.(entries := Seqs.ReplaceWhere(b.entries, (x: Entry) => x.id == id, e),
               currentEntry := if CurrentIs(b, id) then Some(e) else b.currentEntry,
               isLoading := false), Some(e))
    case Failed(err) => Reply(Fail(b, err), None)
  }

  /** `deleteEntry`: drop every entry with that id and answer `true`; the other
      entries stay, in order and with every copy. */
  function DeleteEntry(s: State, id: int, del: Response<()>): (r: Reply<bool>)
    ensures !r.state.isLoading
    ensures r.result <==> del.Ok?
    ensures del.Ok? ==> (r.state.error.None?
      && (forall e :: e in r.state.entries <==> e in s.entries && e.id != id)
      && Seqs.IsSubsequence(r.state.entries, s.entries)
      && (forall e :: multiset(r.state.entries)[e] == if e.id != id then multiset(s.entries)[e] else 0)
      && r.state.currentEntry == if CurrentIs(s, id) then None else s.currentEntry)
    ensures del.Failed? ==> r.state == Fail(s, del.error)
  {
    var b := Begin(s);
    match del
    case Ok(_) =>
      Reply(b.(entries := Seqs.Filter(b.entries, (x: Entry) => x.id != id),
               currentEntry := if CurrentIs(b, id) then None else b.currentEntry,
               isLoading := false), true)
    case Failed(err) => Reply(Fail(b, err), false)
  }

  /** The request a save issues. */
  datatype Call = Post(payload: EntryPayload) | Put(id: int, payload: EntryPayload)

  datatype SaveOutcome = SaveOutcome(state: State, result: Option<Entry>, call: Call)

  /** `saveEntry`: update the entry being edited in place, otherwise put the new
      entry in front; answer the saved entry and close the composer only when the
      request succeeded. */
  function SaveEntry(s: State, payload: EntryPayload, resp: Response<Entry>, today: int): (r: SaveOutcome)
    ensures r.call.Put? <==> s.modalMode == Edit && s.currentEntry.Some?
    ensures r.call.Put? ==> r.call == Put(s.currentEntry.value.id, payload)
    ensures r.call.Post? ==> r.call == Post(payload)
    ensures r.result.Some? <==> resp.Ok?
    ensures resp.Ok? ==> (!r.state.isModalOpen && r.state.modalMode == Create
      && r.state.currentEntry.None? && r.state.formData == BlankForm(today))
    ensures resp.Ok? ==> r.result == Some(resp.value) && r.state.error.None? && !r.state.isLoading
    ensures resp.Ok? && r.call.Post? ==> r.state.entries == [resp.value] + s.entries
    ensures resp.Ok? && r.call.Put? ==>
      |r.state.entries| == |s.entries|
      && forall i :: 0 <= i < |s.entries| ==>
           r.state.entries[i] == if s.entries[i].id == s.currentEntry.value.id then resp.value else s.entries[i]
    ensures resp.Failed? ==> r.state == Fail(s, resp.error)
  {
    if s.modalMode == Edit && s.currentEntry.Some? then
      var u := UpdateEntry(s, s.currentEntry.value.id, resp);
      SaveOutcome(if u.result.Some? then CloseModal(u.state, today) else u.state, u.result,
                  Put(s.currentEntry.value.id, payload))
    else
      var c := CreateEntry(s, resp);
      SaveOutcome(if c.result.Some? then CloseModal(c.state, today) else c.state, c.result,
                  Post(payload))
  }

  function SetCurrentEntry(s: State, e: Option<Entry>): (r: State)
    ensures r == s.(currentEntry := e)
  {
    s.(currentEntry := e)
  }

  function ClearError(s: State): (r: State)
    ensures r.error.None? && r == s.(error := None)
  {
    s.(error := None)
  }

  function ClearCurrentEntry(s: State): (r: State)
    ensures r.currentEntry.None? && r == s.(currentEntry := None)
  {
    s.(currentEntry := None)
  }

  /** A failed save keeps the composer exactly as the user left it, so the
      save can be retried with the same input. */
  lemma FailedSaveKeepsComposer(s: State, payload: EntryPayload, e: HttpError, today: int)
    ensures var r := SaveEntry(s, payload, Failed(e), today).state;
      && r.isModalOpen == s.isModalOpen && r.modalMode == s.modalMode
      && r.formData == s.formData && r.currentEntry == s.currentEntry
      && r.entries == s.entries && r.error == Some(e.message)
  {
  }

  /** A successful edit-save updates the cached entry in place: the list keeps its
      length and every other entry. */
  lemma EditSaveUpdatesInPlace(s: State, payload: EntryPayload, saved: Entry, today: int)
    requires s.modalMode == Edit && s.currentEntry.Some?
    ensures var r := SaveEntry(s, payload, Ok(saved), today).state;
      && |r.entries| == |s.entries|
      && forall i :: 0 <= i < |s.entries| && s.entries[i].id != s.currentEntry.value.id ==>
           r.entries[i] == s.entries[i]
  {
  }
}

=== FILE: note_store.dfy ===
/** The note store: the note list, the inline and modal input buffers and the
    note being edited. Failed requests are only logged: the state is left as it
    was and no error is exposed. */
module NoteStore {
  import opened Base
  import opened Server
  import Text
  import Seqs

  datatype Note = Note(id: int, title: Option<string>, content: string)

  datatype State = State(
    noteText: string,
    notes: seq<Note>,
    isModalOpen: bool,
    modalNoteText: string,
    editingNoteId: Option<int>,
    editingNoteContent: Option<string>,
    editingNoteTitle: string)

  const Initial := State("", [], false, "", None, Some(""), "")

  function SetNoteText(s: State, text: string): (r: State)
    ensures r == s.(noteText := text)
  {
    s.(noteText := text)
  }

  function SetModalNoteText(s: State, text: string): (r: State)
    ensures r == s.(modalNoteText := text)
  {
    s.(modalNoteText := text)
  }

  function SetIsModalOpen(s: State, isOpen: bool): (r: State)
    ensures r == s.(isModalOpen := isOpen)
  {
    s.(isModalOpen := isOpen)
  }

  /** `setEditingNote(id, title, content)`: a missing title is stored as `""`,
      the content exactly as passed (absent stays absent). */
  function SetEditingNote(s: State, id: Option<int>, title: Option<string>, content: Option<string>): (r: State)
    ensures r.editingNoteId == id && r.editingNoteContent == content
    ensures r.editingNoteTitle == OrEmpty(title)
    ensures r.notes == s.notes && r.noteText == s.noteText && r.modalNoteText == s.modalNoteText
    ensures r.isModalOpen == s.isModalOpen
  {
    s.(editingNoteId := id, editingNoteTitle := OrEmpty(title), editingNoteContent := content)
  }

  function ClearEditingNote(s: State): (r: State)
    ensures r.editingNoteId.None? && r.editingNoteTitle == "" && r.editingNoteContent == Some("")
    ensures r.notes == s.notes && r.noteText == s.noteText && r.modalNoteText == s.modalNoteText
    ensures r.isModalOpen == s.isModalOpen
  {
    s.(editingNoteId := None, editingNoteTitle := "", editingNoteContent := Some(""))
  }

  function FetchNotes(s: State, resp: Response<seq<Note>>): (r: State)
    ensures resp.Ok? ==> r == s.(notes := resp.value)
    ensures resp.Failed? ==> r == s
  {
    match resp
    case Ok(ns) => s.(notes := ns)
    case Failed(_) => s
  }

  /** A state after an add, with the content that was POSTed (absent when the
      guard stopped the action before any request). */
  datatype AddOutcome = AddOutcome(state: State, posted: Option<string>)

  /** `addNote`: ignore a blank inline buffer; otherwise post it, append the
      created note and empty the inline buffer only. */
  function AddNote(s: State, post: Response<Note>): (r: AddOutcome)
    ensures Text.IsBlank(s.noteText) ==> r == AddOutcome(s, None)
    ensures !Text.IsBlank(s.noteText) ==> r.posted == Some(s.noteText)
    ensures !Text.IsBlank(s.noteText) && post.Ok? ==>
      r.state == s.(notes := s.notes + [post.value], noteText := "")
    ensures post.Failed? ==> r.state == s
  {
    if Text.IsBlank(s.noteText) then AddOutcome(s, None)
    else
      match post
      case Ok(n) => AddOutcome(s.(notes := s.notes + [n], noteText := ""), Some(s.noteText))
      case Failed(_) => AddOutcome(s, Some(s.noteText))
  }

  /** `addModalNote`: the same from the modal buffer, which also closes the modal. */
  function AddModalNote(s: State, post: Response<Note>): (r: AddOutcome)
    ensures Text.IsBlank(s.modalNoteText) ==> r == AddOutcome(s, None)
    ensures !Text.IsBlank(s.modalNoteText) ==> r.posted == Some(s.modalNoteText)
    ensures !Text.IsBlank(s.modalNoteText) && post.Ok? ==>
      r.state == s.(notes := s.notes + [post.value], modalNoteText := "", isModalOpen := false)
    ensures post.Failed? ==> r.state == s
  {
    if Text.IsBlank(s.modalNoteText) then AddOutcome(s, None)
    else
      match post
      case Ok(n) =>
        AddOutcome(s.(notes := s.notes + [n], modalNoteText := "", isModalOpen := false), Some(s.modalNoteText))
      case Failed(_) => AddOutcome(s, Some(s.modalNoteText))
  }

  /** A buffer of white space only never reaches the server, whatever it would answer. */
  lemma WhitespaceNeverPosted(s: State, post: Response<Note>)
    requires forall i :: 0 <= i < |s.noteText| ==> Text.IsSpace(s.noteText[i])
    ensures AddNote(s, post) == AddOutcome(s, None)
  {
    Text.BlankIffAllSpace(s.noteText);
  }

  /** `updateNote`: swap the returned note in for every note with that id. */
  function UpdateNote(s: State, id: int, put: Response<Note>): (r: State)
    ensures put.Failed? ==> r == s
    ensures put.Ok? ==> r == s.(notes := r.notes) && |r.notes| == |s.notes|
    ensures put.Ok? ==> forall i :: 0 <= i < |s.notes| ==>
      r.notes[i] == if s.notes[i].id == id then put.value else s.notes[i]
  {
    match put
    case Ok(n) => s.(notes := Seqs.ReplaceWhere(s.notes, (x: Note) => x.id == id, n))
    case Failed(_) => s
  }

  /** `deleteNote`: drop every note with that id, keeping the others in order. */
  function DeleteNote(s: State, id: int, del: Response<()>): (r: State)
    ensures del.Failed? ==> r == s
    ensures del.Ok? ==> r == s.(notes := r.notes)
    ensures del.Ok? ==> forall n :: n in r.notes <==> n in s.notes && n.id != id
    ensures del.Ok? ==> Seqs.IsSubsequence(r.notes, s.notes)
    ensures del.Ok? ==> forall n :: multiset(r.notes)[n] == if n.id != id then multiset(s.notes)[n] else 0
  {
    match del
    case Ok(_) => s.(notes := Seqs.Filter(s.notes, (x: Note) => x.id != id))
    case Failed(_) => s
  }

  /** Deleting after updating the same id leaves the same list as deleting alone. */
  lemma DeleteAfterUpdate(s: State, id: int, n: Note)
    requires n.id == id
    ensures DeleteNote(UpdateNote(s, id, Ok(n)), id, Ok(())).notes
         == DeleteNote(s, id, Ok(())).notes
  {
    DeleteReplaceCommute(s.notes, id, n);
  }

  lemma {:induction false} DeleteReplaceCommute(ns: seq<Note>, id: int, n: Note)
    requires n.id == id
    ensures Seqs.Filter(Seqs.ReplaceWhere(ns, (x: Note) => x.id == id, n), (x: Note) => x.id != id)
         == Seqs.Filter(ns, (x: Note) => x.id != id)
  {
    if |ns| > 0 {
      DeleteReplaceCommute(ns[1..], id, n);
      var rep := Seqs.ReplaceWhere(ns, (x: Note) => x.id == id, n);
      assert rep[1..] == Seqs.ReplaceWhere(ns[1..], (x: Note) => x.id == id, n);
    }
  }
}

=== FILE: routes.dfy ===
/** The route test shared by the sidebar and the layout shell: a pathname is
    inside route `path` when it is the route itself or lies below it. */
module Routes {
  import opened Text

  /** `pathname === path || pathname.startsWith(path + "/")`. */
  predicate RouteMatches(pathname: string, path: string) {
    pathname == path || StartsWith(pathname, path + "/")
  }

  /** Route `q` lies below route `p`. */
  predicate Below(q: string, p: string) {
    StartsWith(q, p + "/")
  }

  /** Two different routes neither of which lies below the other are never
      matched by the same pathname. */
  lemma NoSharedPathname(pathname: string, p: string, q: string)
    requires p != q && !Below(q, p) && !Below(p, q)
    ensures !(RouteMatches(pathname, p) && RouteMatches(pathname, q))
  {
    PrefixesOfOneString(pathname, p + "/", q + "/");
    PrefixesOfOneString(pathname, q + "/", p + "/");
    SlashCancels(p, q);
  }

  /** Two prefixes of one string: the shorter is a prefix of the longer. */
  lemma PrefixesOfOneString(s: string, a: string, b: string)
    ensures StartsWith(s, a) && StartsWith(s, b) && |a| <= |b| ==> StartsWith(b, a)
  {
    if StartsWith(s, a) && StartsWith(s, b) && |a| <= |b| {
      assert b[..|a|] == s[..|b|][..|a|] == s[..|a|];
    }
  }

  lemma SlashCancels(p: string, q: string)
    ensures StartsWith(q + "/", p + "/") && |p| == |q| ==> p == q
  {
    if StartsWith(q + "/", p + "/") && |p| == |q| {
      assert p == (p + "/")[..|p|] == (q + "/")[..|q|] == q;
    }
  }

  /** A pathname that only extends the route without a slash does not match it. */
  lemma ExtensionWithoutSlash(path: string, tail: string)
    requires |tail| > 0 && tail[0] != '/'
    ensures !RouteMatches(path + tail, path)
  {
    assert (path + tail)[|path|] == tail[0];
    assert (path + "/")[|path|] == '/';
  }
}

=== FILE: seqs.dfy ===
/** Order-preserving sequence operations behind JavaScript's `Array.prototype.map`,
    `filter`, `flatMap`, `slice` and `[...new Set(xs)]`. */
module Seqs {

  /** `a` is obtained from `b` by deleting elements (order kept). */
  predicate IsSubsequence<T(==,!new)>(a: seq<T>, b: seq<T>)
    decreases |b|
  {
    |a| == 0 ||
    (|b| > 0 && if a[0] == b[0] then IsSubsequence(a[1..], b[1..]) else IsSubsequence(a, b[1..]))
  }

  predicate NoDuplicates<T(==,!new)>(s: seq<T>) {
    forall i, j :: 0 <= i < j < |s| ==> s[i] != s[j]
  }

  /** `xs.filter(keep)`. */
  function Filter<T(==,!new)>(s: seq<T>, keep: T -> bool): (r: seq<T>)
    ensures |r| <= |s|
    ensures forall x :: x in r <==> x in s && keep(x)
    ensures IsSubsequence(r, s)
    ensures forall x :: multiset(r)[x] == if keep(x) then multiset(s)[x] else 0
  {
    if |s| == 0 then []
    else
      var rest := Filter(s[1..], keep);
      assert forall x :: x in s ==> x == s[0] || x in s[1..];
      assert s == [s[0]] + s[1..];
      if keep(s[0]) then [s[0]] + rest
      else
        assert rest == [] || rest[0] != s[0];
        rest
  }

  lemma FilterCons<T(!new)>(x: T, s: seq<T>, keep: T -> bool)
    ensures Filter([x] + s, keep) == (if keep(x) then [x] else []) + Filter(s, keep)
  {
    assert ([x] + s)[1..] == s;
  }

  /** A subsequence holds no value more often than the sequence it came from. */
  lemma {:induction false} SubsequenceMultiset<T(!new)>(a: seq<T>, b: seq<T>)
    requires IsSubsequence(a, b)
    ensures multiset(a) <= multiset(b)
    decreases |b|
  {
    if |a| > 0 {
      assert a == [a[0]] + a[1..];
      assert b == [b[0]] + b[1..];
      if a[0] == b[0] {
        SubsequenceMultiset(a[1..], b[1..]);
      } else {
        SubsequenceMultiset(a, b[1..]);
      }
    }
  }

  /** The contract of `Filter` fixes its result: the only subsequence of `s`
      holding each kept value as often as `s` and no other value is `Filter(s, keep)`. */
  lemma {:induction false} FilterUnique<T(!new)>(r: seq<T>, s: seq<T>, keep: T -> bool)
    requires IsSubsequence(r, s)
    requires forall x :: multiset(r)[x] == if keep(x) then multiset(s)[x] else 0
    ensures r == Filter(s, keep)
    decreases |s|
  {
    if |s| > 0 {
      assert s == [s[0]] + s[1..];
      if |r| > 0 && r[0] == s[0] {
        assert r == [r[0]] + r[1..];
        FilterUnique(r[1..], s[1..], keep);
      } else {
        assert IsSubsequence(r, s[1..]);
        SubsequenceMultiset(r, s[1..]);
        assert multiset(s)[s[0]] == multiset(s[1..])[s[0]] + 1;
        assert multiset(r)[s[0]] <= multiset(s[1..])[s[0]];
        assert !keep(s[0]);
        FilterUnique(r, s[1..], keep);
      }
    }
  }

  /** Keeping everything keeps the sequence as it is. */
  lemma {:induction false} FilterAll<T(!new)>(s: seq<T>, keep: T -> bool)
    requires forall x :: x in s ==> keep(x)
    ensures Filter(s, keep) == s
  {
    if |s| > 0 {
      assert forall x :: x in s[1..] ==> x in s;
      FilterAll(s[1..], keep);
    }
  }

  /** `xs.map(x => hit(x) ? v : x)`. */
  function ReplaceWhere<T>(s: seq<T>, hit: T -> bool, v: T): (r: seq<T>)
    ensures |r| == |s|
    ensures forall i :: 0 <= i < |s| ==> r[i] == if hit(s[i]) then v else s[i]
  {
    if |s| == 0 then []
    else [if hit(s[0]) then v else s[0]] + ReplaceWhere(s[1..], hit, v)
  }

  /** Replacing when nothing matches changes nothing. */
  lemma ReplaceNoHit<T>(s: seq<T>, hit: T -> bool, v: T)
    requires forall i :: 0 <= i < |s| ==> !hit(s[i])
    ensures ReplaceWhere(s, hit, v) == s
  {
  }

  /** Replacing twice with a value that itself matches is replacing once. */
  lemma ReplaceIdempotent<T>(s: seq<T>, hit: T -> bool, v: T)
    requires hit(v)
    ensures ReplaceWhere(ReplaceWhere(s, hit, v), hit, v) == ReplaceWhere(s, hit, v)
  {
  }

  /** `xs.flatMap(...)` after the map: the concatenation of all parts. */
  function Concat<T(!new)>(ss: seq<seq<T>>): (r: seq<T>)
    ensures forall x :: x in r <==> exists i :: 0 <= i < |ss| && x in ss[i]
  {
    if |ss| == 0 then []
    else
      var rest := Concat(ss[1..]);
      assert forall i :: 1 <= i < |ss| ==> ss[i] == ss[1..][i - 1];
      ss[0] + rest
  }

  /** The position of the first occurrence of `x` in `s`. */
  function FirstIndex<T(==)>(s: seq<T>, x: T): (k: nat)
    requires x in s
    ensures k < |s| && s[k] == x && x !in s[..k]
  {
    if s[0] == x then 0
    else
      var k := 1 + FirstIndex(s[1..], x);
      assert s[..k] == [s[0]] + s[1..][..k - 1];
      k
  }

  /** `[...new Set(xs)]` for the elements not in `seen`: each value once, at the
      position of its first occurrence. */
  function DedupFrom<T(==,!new)>(s: seq<T>, seen: set<T>): (r: seq<T>)
    ensures NoDuplicates(r)
    ensures forall x :: x in r <==> x in s && x !in seen
    ensures IsSubsequence(r, s)
  {
    if |s| == 0 then []
    else
      assert forall x :: x in s ==> x == s[0] || x in s[1..];
      if s[0] in seen then
        var rest := DedupFrom(s[1..], seen);
        assert rest == [] || rest[0] != s[0];
        rest
      else
        [s[0]] + DedupFrom(s[1..], seen + {s[0]})
  }

  /** Past a different head, the first occurrence is one further than in the tail. */
  lemma FirstIndexTail<T>(s: seq<T>, y: T)
    requires |s| > 0 && y in s[1..] && y != s[0]
    ensures y in s && FirstIndex(s, y) == 1 + FirstIndex(s[1..], y)
  {
    assert s == [s[0]] + s[1..];
  }

  /** `r` lists values of `s` ordered by where they first appear in `s`. */
  predicate FirstSeenOrder<T(==)>(r: seq<T>, s: seq<T>) {
    (forall i :: 0 <= i < |r| ==> r[i] in s)
    && forall i, j :: 0 <= i < j < |r| ==> FirstIndex(s, r[i]) < FirstIndex(s, r[j])
  }

  /** The order carries over from the tail to the whole sequence, with or
      without the head in front. */
  lemma FirstSeenOrderCons<T>(s: seq<T>, rest: seq<T>)
    requires |s| > 0 && FirstSeenOrder(rest, s[1..])
    requires forall i :: 0 <= i < |rest| ==> rest[i] != s[0]
    ensures FirstSeenOrder(rest, s)
    ensures FirstSeenOrder([s[0]] + rest, s)
  {
    forall i | 0 <= i < |rest|
      ensures rest[i] in s && FirstIndex(s, rest[i]) == 1 + FirstIndex(s[1..], rest[i])
    {
      FirstIndexTail(s, rest[i]);
    }
    var r := [s[0]] + rest;
    assert forall i :: 1 <= i < |r| ==> r[i] == rest[i - 1];
  }

  /** The values `DedupFrom` keeps are ordered by where they first appear in `s`. */
  lemma {:induction false} DedupFromFirstSeen<T(!new)>(s: seq<T>, seen: set<T>)
    ensures FirstSeenOrder(DedupFrom(s, seen), s)
  {
    if |s| > 0 {
      var seen' := if s[0] in seen then seen else seen + {s[0]};
      var rest := DedupFrom(s[1..], seen');
      DedupFromFirstSeen(s[1..], seen');
      assert forall i :: 0 <= i < |rest| ==> rest[i] in rest;
      FirstSeenOrderCons(s, rest);
    }
  }

  /** `[...new Set(xs)]`: each value of `s` once, ordered by where it first
      appears in `s`. */
  function Dedup<T(==,!new)>(s: seq<T>): (r: seq<T>)
    ensures NoDuplicates(r)
    ensures forall x :: x in r <==> x in s
    ensures IsSubsequence(r, s)
    ensures FirstSeenOrder(r, s)
  {
    DedupFromFirstSeen(s, {});
    DedupFrom(s, {})
  }

  /** A duplicate-free sequence is its own de-duplication. */
  lemma {:induction false} DedupNoDuplicates<T(!new)>(s: seq<T>, seen: set<T>)
    requires NoDuplicates(s)
    requires forall x :: x in s ==> x !in seen
    ensures DedupFrom(s, seen) == s
  {
    if |s| > 0 {
      assert forall x :: x in s[1..] ==> x in s && x != s[0];
      DedupNoDuplicates(s[1..], seen + {s[0]});
    }
  }

  /** `xs.slice(0, n)`. */
  function Take<T>(s: seq<T>, n: nat): (r: seq<T>)
    ensures |r| == if |s| < n then |s| else n
    ensures forall i :: 0 <= i < |r| ==> r[i] == s[i]
  {
    if |s| <= n then s else s[..n]
  }
}

=== FILE: server.dfy ===
/** The REST backend, seen from a store: every request either yields a payload
    or fails with an axios-style error. Which one happens is an input of the model. */
module Server {
  import opened Base

  /** An axios error: `error.message` (always present) and the backend's own
      `error.response.data.message`, which is absent for transport failures. */
  datatype HttpError = HttpError(message: string, serverMessage: Option<string>)

  /** The outcome of one HTTP request. */
  datatype Response<+T> = Ok(value: T) | Failed(error: HttpError)

  /** `error.response?.data?.message || fallback`: the backend's message when it
      sent a non-empty one, otherwise the action's fixed fallback text. */
  function MessageOr(e: HttpError, fallback: string): (r: string)
    ensures e.serverMessage.Some? && e.serverMessage.value != "" ==> r == e.serverMessage.value
    ensures e.serverMessage.None? || e.serverMessage.value == "" ==> r == fallback
  {
    if e.serverMessage.Some? && e.serverMessage.value != "" then e.serverMessage.value else fallback
  }
}

=== FILE: sidebar.dfy ===
/** The navigation menu and its active-item highlighting. */
module SideBar {
  import opened Routes
  import Text

  datatype MenuItem = MenuItem(name: string, path: string)

  const MenuItems: seq<MenuItem> := [
    MenuItem("Finances", "/finances"),
    MenuItem("Fitness", "/fitness"),
    MenuItem("Learning", "/learning"),
    MenuItem("Wellbeing", "/wellbeing"),
    MenuItem("Goals", "/goals"),
    MenuItem("Settings", "/settings")
  ]

  /** An item is highlighted when the pathname is its route or lies below it. */
  predicate IsActive(pathname: string, item: MenuItem) {
    RouteMatches(pathname, item.path)
  }

  /** The exact route activates its item. */
  lemma ActiveOnOwnPath(item: MenuItem)
    ensures IsActive(item.path, item)
  {
  }

  /** Any sub-route activates its item. */
  lemma ActiveBelowPath(item: MenuItem, rest: string)
    ensures IsActive(item.path + "/" + rest, item)
  {
    assert (item.path + "/" + rest)[..|item.path| + 1] == item.path + "/";
  }

  /** `"/goalsX"` does not activate Goals. */
  lemma GoalsXInactive()
    ensures !IsActive("/goalsX", MenuItems[4])
  {
    assert "/goalsX" == "/goals" + "X";
    ExtensionWithoutSlash("/goals", "X");
  }

  /** The menu routes are pairwise different and none lies below another. */
  lemma MenuRoutesIndependent(i: int, j: int)
    requires 0 <= i < |MenuItems| && 0 <= j < |MenuItems| && i != j
    ensures MenuItems[i].path != MenuItems[j].path
    ensures !Below(MenuItems[j].path, MenuItems[i].path)
  {
    var p, q := MenuItems[i].path, MenuItems[j].path;
    assert p[1] != q[1] || p[3] != q[3];
  }

  /** At most one menu item is highlighted for any pathname. */
  lemma AtMostOneActive(pathname: string, i: int, j: int)
    requires 0 <= i < |MenuItems| && 0 <= j < |MenuItems|
    requires IsActive(pathname, MenuItems[i]) && IsActive(pathname, MenuItems[j])
    ensures i == j
  {
    if i != j {
      MenuRoutesIndependent(i, j);
      MenuRoutesIndependent(j, i);
      NoSharedPathname(pathname, MenuItems[i].path, MenuItems[j].path);
    }
  }
}

=== FILE: text.dfy ===
/** JavaScript string operations the views rely on: `trim`, `toLowerCase`,
    `includes`, `startsWith`, `split(",")`, `join(sep)` and `replace(/,/g, "")`. */
module Text {

  /** The characters `String.prototype.trim` removes: ECMAScript WhiteSpace
      (TAB, VT, FF, SP, NBSP, ZWNBSP and the Unicode Zs category) and LineTerminator. */
  predicate IsSpace(c: char) {
    || c == '\t' || c == '\U{000B}' || c == '\U{000C}' || c == ' ' || c == '\U{00A0}'
    || c == '\U{FEFF}' || c == '\n' || c == '\r' || c == '\U{2028}' || c == '\U{2029}'
    || c == '\U{1680}' || ('\U{2000}' <= c <= '\U{200A}') || c == '\U{202F}'
    || c == '\U{205F}' || c == '\U{3000}'
  }

  /** No leading and no trailing white space. */
  predicate IsTrimmed(s: string) {
    |s| == 0 || (!IsSpace(s[0]) && !IsSpace(s[|s| - 1]))
  }

  function TrimStart(s: string): (r: string)
    ensures |r| <= |s| && r == s[|s| - |r|..]
    ensures |r| == 0 || !IsSpace(r[0])
    ensures forall i :: 0 <= i < |s| - |r| ==> IsSpace(s[i])
  {
    if |s| > 0 && IsSpace(s[0]) then TrimStart(s[1..]) else s
  }

  function TrimEnd(s: string): (r: string)
    ensures |r| <= |s| && r == s[..|r|]
    ensures |r| == 0 || !IsSpace(r[|r| - 1])
    ensures forall i :: |r| <= i < |s| ==> IsSpace(s[i])
  {
    if |s| > 0 && IsSpace(s[|s| - 1]) then TrimEnd(s[..|s| - 1]) else s
  }

  /** `s.trim()`: the slice of `s` between its leading and trailing white space. */
  function Trim(s: string): (r: string)
    ensures IsTrimmed(r)
    ensures |r| <= |s|
  {
    var t := TrimStart(s);
    var r := TrimEnd(t);
    assert |r| > 0 ==> r[0] == t[0];
    r
  }

  /** Trimming never introduces a character. */
  lemma TrimKeepsOut(s: string, c: char)
    requires c !in s
    ensures c !in Trim(s)
  {
    var t := TrimStart(s);
    var r := TrimEnd(t);
    var i := |s| - |t|;
    forall k | 0 <= k < |r| ensures r[k] != c {
      assert r[k] == t[k] == s[i + k];
    }
  }

  /** `!s.trim()`: empty or made only of white space. */
  predicate IsBlank(s: string) {
    Trim(s) == ""
  }

  /** A string is blank exactly when every character is white space. */
  lemma BlankIffAllSpace(s: string)
    ensures IsBlank(s) <==> forall i :: 0 <= i < |s| ==> IsSpace(s[i])
  {
    var t := TrimStart(s);
    assert |t| > 0 ==> t[0] == s[|s| - |t|];
    if exists k :: 0 <= k < |s| && !IsSpace(s[k]) {
      var k :| 0 <= k < |s| && !IsSpace(s[k]);
      assert |s| - |t| <= k;
      assert t[k - (|s| - |t|)] == s[k];
      assert |TrimEnd(t)| > 0;
    }
  }

  /** Trimming a string that has no surrounding white space leaves it alone. */
  lemma TrimTrimmed(s: string)
    requires IsTrimmed(s)
    ensures Trim(s) == s
  {
  }

  /** Leading white space never survives `trim`. */
  lemma TrimSpacePrefix(s: string)
    ensures Trim(" " + s) == Trim(s)
  {
    assert (" " + s)[1..] == s;
  }

  /** ASCII `toLowerCase`. */
  function LowerChar(c: char): (r: char)
    ensures 'A' <= c <= 'Z' ==> 'a' <= r <= 'z'
    ensures !('A' <= c <= 'Z') ==> r == c
  {
    if 'A' <= c <= 'Z' then (c as int - 'A' as int + 'a' as int) as char else c
  }

  function Lower(s: string): (r: string)
    ensures |r| == |s|
    ensures forall i :: 0 <= i < |s| ==> r[i] == LowerChar(s[i])
  {
    seq(|s|, i requires 0 <= i < |s| => LowerChar(s[i]))
  }

  /** `hay.includes(needle)`. */
  predicate Includes(hay: string, needle: string) {
    exists i | 0 <= i <= |hay| - |needle| :: OccursAt(hay, needle, i)
  }

  /** `needle` appears in `hay` starting at index `i`. */
  predicate OccursAt(hay: string, needle: string, i: int) {
    0 <= i <= |hay| - |needle| && hay[i..i + |needle|] == needle
  }

  /** Every string includes the empty string. */
  lemma IncludesEmpty(hay: string)
    ensures Includes(hay, "")
  {
    assert OccursAt(hay, "", 0);
  }

  /** `s.startsWith(prefix)`. */
  predicate StartsWith(s: string, prefix: string) {
    |prefix| <= |s| && s[..|prefix|] == prefix
  }

  /** `parts.join(sep)`. */
  function Join(parts: seq<string>, sep: string): (r: string)
    ensures |parts| == 1 ==> r == parts[0]
  {
    if |parts| == 0 then ""
    else if |parts| == 1 then parts[0]
    else parts[0] + sep + Join(parts[1..], sep)
  }

  /** `s.split(sep)` for a one-character separator: always at least one piece,
      no piece holds the separator, and joining the pieces gives `s` back. */
  function Split(s: string, sep: char): (r: seq<string>)
    ensures |r| >= 1
    ensures forall i :: 0 <= i < |r| ==> sep !in r[i]
    ensures Join(r, [sep]) == s
  {
    if |s| == 0 then [""]
    else
      var rest := Split(s[1..], sep);
      if s[0] == sep then
        assert ([""] + rest)[1..] == rest;
        [""] + rest
      else
        var r := [[s[0]] + rest[0]] + rest[1..];
        assert r[1..] == rest[1..];
        assert s == [s[0]] + s[1..];
        r
  }

  /** A string without the separator splits into itself. */
  lemma {:induction false} SplitNoSep(s: string, sep: char)
    requires sep !in s
    ensures Split(s, sep) == [s]
  {
    if |s| > 0 {
      SplitNoSep(s[1..], sep);
      assert [s[0]] + s[1..] == s;
    }
  }

  /** Splitting at the first separator. */
  lemma {:induction false} SplitAtFirst(a: string, sep: char, b: string)
    requires sep !in a
    ensures Split(a + [sep] + b, sep) == [a] + Split(b, sep)
  {
    if |a| == 0 {
      assert a + [sep] + b == [sep] + b;
      assert ([sep] + b)[1..] == b;
    } else {
      var s := a + [sep] + b;
      assert s[1..] == a[1..] + [sep] + b;
      SplitAtFirst(a[1..], sep, b);
      assert [a[0]] + a[1..] == a;
    }
  }

  /** Splitting a string that starts with a non-separator puts that character
      in front of the first piece. */
  lemma SplitCons(c: char, s: string, sep: char)
    requires c != sep
    ensures Split([c] + s, sep) == [[c] + Split(s, sep)[0]] + Split(s, sep)[1..]
  {
    assert ([c] + s)[1..] == s;
  }

  /** `s.replace(/,/g, "")` for any character. */
  function Remove(s: string, c: char): (r: string)
    ensures c !in r
    ensures |r| <= |s|
  {
    if |s| == 0 then ""
    else (if s[0] == c then "" else [s[0]]) + Remove(s[1..], c)
  }

  /** Removing a character that does not occur changes nothing. */
  lemma {:induction false} RemoveAbsent(s: string, c: char)
    requires c !in s
    ensures Remove(s, c) == s
  {
    if |s| > 0 {
      RemoveAbsent(s[1..], c);
      assert [s[0]] + s[1..] == s;
    }
  }

  lemma RemoveCons(x: char, s: string, c: char)
    ensures Remove([x] + s, c) == (if x == c then "" else [x]) + Remove(s, c)
  {
    assert ([x] + s)[1..] == s;
  }

  lemma {:induction false} RemoveAppend(a: string, b: string, c: char)
    ensures Remove(a + b, c) == Remove(a, c) + Remove(b, c)
  {
    if |a| == 0 {
      assert a + b == b;
    } else {
      var x, rest := a[0], a[1..];
      assert a == [x] + rest;
      assert a + b == [x] + (rest + b);
      RemoveCons(x, rest + b, c);
      RemoveCons(x, rest, c);
      RemoveAppend(rest, b, c);
    }
  }
}
